=== FILE: README.md ===
# scatter-yolo placement engine, in Dafny

A model of the part of scatter-yolo's `SyntheticGenerator` that decides where each object goes on a
synthetic image, and of the integer box helpers it uses:

- the bounds test `_isCoordinateWithinBounds`: a rectangular margin plus a circular crop of radius
  `floor(image_size / 2) - image_padding`;
- the emptiness test `_isCoordinateEmpty` over the S x S window that `_calculateLocationPixels` cuts out of the
  flat row-major RGBA buffer;
- the location search `_getNextSpawnLocation`. It makes up to 301 candidates: a teleport or a step first, then
  the remaining directions popped off `angle_choices`, then teleports. It returns the first box that passes both
  tests, or the sentinel `(-1, -1, -1, -1)`;
- the category pick `_getNextObject`: a walk over the cumulative ratios, with the last category as fallback;
- the bookkeeping loop of `generete` for one image: a target redrawn at every test of the guard, the sentinel
  hand-off, the counts and the annotations;
- `centerToBoundingBox`, `boundingBoxToCenter` and `translateBoxInPolarCoords` from `app/utils.py`, as plain
  functions. Python's `round` is modelled with ties going to the even neighbour.

Every random choice is an explicit oracle parameter:

- the coin of the separation chance;
- the draws behind `random.shuffle` (Fisher-Yates, each draw reduced into range);
- the teleport centres;
- the draw of `random.random()` for the category;
- the draw behind `random.randint`.

Pasting an object into the canvas is a PIL operation, so it is a parameter too. The model records the canvas
each search looked at.

Modules, one per file:

| file | module | models |
|---|---|---|
| results.dfy | Results | `Result`/`Option` and the exceptions the engine raises on its own inputs |
| geometry.dfy | Geometry | boxes, centres, `round`, the eight step offsets |
| settings.dfy | Settings | the class constants and the generator's size, padding and radius |
| boundary.dfy | Boundary | the bounds test |
| overlap.dfy | Overlap | the pixel window and the emptiness test |
| sampler.dfy | Sampler | the category pick and the default ratios |
| shuffling.dfy | Shuffling | `random.shuffle` over oracle draws |
| placement.dfy | Placement | the location search |
| scene.dfy | Scene | the per-image loop |

The search and the loop are written once, generically. The search takes any box-per-move function and any
acceptance test. The loop takes any location search. They are then tied to the concrete tests through one
equation each: `Placement.Mover`, `Placement.Validity` and `Scene.Spawner`. The generic lemmas therefore hold
for the concrete search as well.

## Model

| member | source | states |
|---|---|---|
| Geometry.RoundHalf | app/utils.py:26-29 | round(n / 2) is within 1/2 of n / 2, exact for even n, and an odd n's tie goes to the even integer |
| Geometry.CenterToBoundingBox | app/utils.py:21-30 | for an even size the box is exactly (cx - s/2, cy - s/2, cx + s/2, cy + s/2) |
| Geometry.OddSizeWidth | app/utils.py:26-29 | for an odd size the box is s + 1 or s - 1 wide and high; it is s + 1 exactly when cx - (s+1)/2 is even (both ties round outwards) |
| Geometry.OddSizeTies | app/utils.py:26-29 | centre 10 with size 3 gives corners 8 and 12, so the width is 4; centre 11 comes back as 12 |
| Geometry.BoundingBoxToCenter | app/utils.py:33-39 | the centre is the rounded top-left plus size/2, within 1/2 of it, and the bottom-right corner is not read |
| Geometry.RoundTripEvenSize | app/utils.py:21-39 | for an even size, centre to box to centre gives back the centre |
| Geometry.RoundTripOddSize | app/utils.py:21-39 | for an odd size the round trip is off by at most one on each axis |
| Geometry.TranslateBox | app/utils.py:55-69 | both corners move by the same offset, so width and height are unchanged |
| Geometry.DiagonalStepBounds | app/utils.py:59-68 | the diagonal leg m = round(d * sin(pi/4)) satisfies (2m - 1)^2 < 2d^2 < (2m + 1)^2 |
| Geometry.DiagonalStepIsNearest | app/utils.py:59-68 | that inequality singles the rounded leg out: any m meeting it is the diagonal step |
| Geometry.DirectionOffsetFollowsAngle | app/utils.py:59-62 | a step in direction k goes the way of the angle k * pi/4: x has the sign of its sine, y the sign of its cosine |
| Geometry.AxisStepLength | app/utils.py:59-62 | a step on an axis has length exactly d |
| Geometry.DiagonalStepLength | app/utils.py:59-62 | a diagonal step has both legs of length round(d / sqrt 2) |
| Geometry.DiagonalStep | app/utils.py:59-62 | the rounded diagonal leg never exceeds the distance (the rounding itself is DiagonalStepBounds) |
| Geometry.DirectionOffset | app/utils.py:59-62 | the rounded (d sin a, d cos a) for a = k pi/4: on an axis one leg is 0 and the legs' magnitudes add up to d; on a diagonal both legs have the magnitude of the rounded diagonal |
| Geometry.FullTurnStep | app/image_generator.py:104 | the last direction, the angle 2pi, steps straight along +y by d |
| Settings.Config.BoundaryRadius | app/image_generator.py:33 | the radius r satisfies 2(r + padding) <= image_size < 2(r + padding) + 2, i.e. r = floor(image_size / 2) - padding |
| Placement.IsValidLocation | app/image_generator.py:126-130 | a candidate is accepted iff it passes the bounds test and the channel total of its window is below 50000; the sentinel is never accepted |
| Boundary.IsCoordinateWithinBounds | app/image_generator.py:65-93 | accepted iff all four coordinates lie in [0, W - S] x [0, H - S] and the centre from the top-left is within the radius of (W/2, H/2); an accepted box has its top-left in range |
| Boundary.CircleTest | app/image_generator.py:87-90 | the real-valued `dist > r` test agrees with the doubled integer test (2cx - W)^2 + (2cy - H)^2 <= 4r^2 |
| Boundary.SquareBoxBounds | app/image_generator.py:67-78 | an S x S box passes iff its top-left is in [0, W - 2S] x [0, H - 2S] and its centre is in the circle: a strip S wide at the right and bottom is never used |
| Boundary.RightStripRefused | app/image_generator.py:67-72 | with the defaults, box (480, 240, 498, 258) fits the canvas and the circle and is still refused |
| Boundary.SentinelOutOfBounds | app/image_generator.py:17 | the sentinel never passes the bounds test |
| Overlap.CalculateLocationPixels | app/image_generator.py:163-178 | the loop returns S*S pixels, the window of S rows taken one canvas row apart |
| Overlap.WindowRowIsSlice | app/image_generator.py:163-178 | row k of the window is pixels[W(y+k)+x .. W(y+k)+x+S], inside the buffer |
| Overlap.IsCoordinateEmpty | app/image_generator.py:58-63 | empty iff the sum of all channels over the window's canvas indices is below 50000 |
| Overlap.SmallObjectsAlwaysEmpty | app/image_generator.py:19 | when S*S*1020 < 50000, every window counts as empty whatever is on the canvas |
| Overlap.EmptinessReadsOnlyWindow | app/image_generator.py:58-63 | two canvases that agree on the window's rows agree on emptiness |
| Overlap.BlankCanvasEmpty | app/image_generator.py:58-63 | on an all-zero canvas every in-range window is empty |
| Sampler.PickCategory | app/image_generator.py:44-56 | the pick is the first index whose running sum reaches r, or the last index; nothing for an empty list |
| Sampler.PickInterval | app/image_generator.py:47-50 | with non-negative ratios, category k (not the last) is picked iff S_k < r <= S_k+1 (category 0 for every r <= S_1) |
| Sampler.LastAbsorbsResidual | app/image_generator.py:50 | the last category is picked iff r exceeds the sum of all the others, or it is the only category (then even r = 0.0 picks it) |
| Sampler.ZeroRatioNeverPicked | app/image_generator.py:47-50 | a zero ratio strictly inside the list is never picked |
| Sampler.PickMonotone | app/image_generator.py:47-50 | a larger draw never picks an earlier category |
| Sampler.GetNextObject | app/image_generator.py:44-56 | succeeds iff the list is non-empty and the picked category exists and has object files, returning the pick |
| Sampler.DefaultRatiosAlwaysPick | app/image_generator.py:44-56 | with the default equal shares and every category holding files, no draw makes the pick fail |
| Sampler.DefaultRatios | app/image_generator.py:191-194 | a given list is used as is; otherwise n equal shares summing to 1, or a division by zero for n = 0 |
| Shuffling.ShufflePermutes | app/image_generator.py:118 | the shuffled directions are a permutation of the original list |
| Shuffling.PermutationDistinct | app/image_generator.py:118 | a permutation of a list without repeats has no repeats |
| Placement.PlanQueuePermutes | app/image_generator.py:104-118 | either way the direction list holds each of the eight directions exactly once |
| Placement.MakePlan | app/image_generator.py:105-118 | the search opens with a teleport iff the box is the sentinel or the coin is below the separation chance, and then the list stays in the order 1..8 |
| Placement.Stop | app/image_generator.py:128-132 | the loop stops at the first accepted candidate, or at candidate 300 |
| Placement.StopIsFirstAccepted | app/image_generator.py:128-132 | any k that is accepted (or is 300) with none accepted before it is the stop index |
| Placement.FirstTeleport | app/image_generator.py:105-144 | the index it gives is a teleport and every candidate before it is a step |
| Placement.SearchWith | app/image_generator.py:95-161 | at most 301 candidates, evaluated in order, all but the last refused; the result is the last one if accepted, else the sentinel after all 301; with radius <= 0 an opening teleport raises, and a search that returns evaluated steps only; the only exception is the empty `randrange`, raised only with radius <= 0 once every candidate before the first teleport was refused |
| Placement.AcceptedBeforeTeleport | app/image_generator.py:126-150 | whatever the radius, a step accepted before the first teleport is returned after k + 1 attempts: `randrange` is never reached |
| Placement.Search | app/image_generator.py:95-161 | the result is the sentinel or a box that passes both the bounds and the emptiness test against the canvas; with radius <= 0 an opening teleport raises, and a search that returns evaluated steps only; it raises only `EmptyRange`, only with radius <= 0, and only once every box before the first teleport failed the tests |
| Placement.SearchFindsFirstAccepted | app/image_generator.py:126-161 | with a positive radius the search returns exactly the first accepted candidate, after k + 1 attempts |
| Placement.SentinelMeansAllRefused | app/image_generator.py:157-161 | the sentinel comes back only when all 301 candidates were refused |
| Placement.UnshuffledAfterTeleport | app/image_generator.py:104-150 | after an opening teleport, candidates 1..8 step in directions 8, 7, ..., 1 and all later ones teleport |
| Placement.TeleportsAfterSteps | app/image_generator.py:133-150 | a candidate teleports iff it is the opening one or comes after the whole list is popped |
| Placement.StepsNeverRepeat | app/image_generator.py:119-150 | no direction is tried twice in one search |
| Placement.StepsCoverAllDirections | app/image_generator.py:133-144 | a teleport after the opening happens only once all eight directions were tried |
| Placement.MoveBox | app/image_generator.py:113-124 | a step moves the incoming box (not the last refused candidate) by the direction's offset and keeps its size; a teleport with an even object size gives an S x S box |
| Placement.PlannedMove | app/image_generator.py:101-150 | candidate i is the opening teleport, then the directions popped from the end of the list in turn, then teleports with the following centres |
| Placement.QueuedMove | app/image_generator.py:119-150 | the k-th pop is the last element of what is left of the list after k pops; once the list is empty every move teleports |
| Placement.SentinelCandidates | app/image_generator.py:105-150 | from the sentinel on a blank 40 px canvas with 20 px objects, candidates 0..7 are refused and candidate 8 is the accepted box (15, 15, 15, 15) |
| Placement.DegenerateFromSentinel | app/image_generator.py:105-150 | steps after an opening teleport translate the sentinel itself, so the search can return a zero-size box: on a blank 40 px canvas the teleport to the centre (20, 20) is refused and the ninth candidate (15, 15, 15, 15) is returned |
| Scene.TargetCount | app/image_generator.py:220 | randint(min, max) lies in [min, max] and raises iff min > max |
| Scene.TargetCountCovers | app/image_generator.py:220 | every count in the range is drawn for some draw |
| Scene.BlankCanvas | app/image_generator.py:203 | the fresh canvas has W*H pixels, all transparent black |
| Scene.Annotate | app/image_generator.py:229-241 | the annotation's centre times the canvas size is the box's centre, and its size times the canvas size is the object size |
| Scene.TotalIncrement | app/image_generator.py:238 | incrementing one count raises the sum of the counts by one |
| Scene.Record | app/image_generator.py:238-242 | one iteration counts exactly one category, leaves the others, and appends exactly one annotation and location |
| Scene.ConsistentRecord | app/image_generator.py:224-242 | an iteration keeps the loop's invariant: counts are the annotations' histogram and sum to their number, annotations describe the locations, canvases chain through pastes, each location is its search's result, only the last may be the sentinel |
| Scene.Spawner | app/image_generator.py:225-228 | a location it returns is the sentinel or a box that passes both tests on the canvas given; its only exception is the empty `randrange` with a radius <= 0; a search from the sentinel succeeds only with a positive radius; on a full canvas it is the search with separation chance 1 - cluster_idx and iteration k's choices |
| Scene.FirstSearchNeedsRadius | app/image_generator.py:105-112 | the first search starts from the sentinel, so it only succeeds with a positive radius |
| Scene.PlaceObjects | app/image_generator.py:214-242 | for any search: the invariant at exit, at most max objects, at least one when min > 0; the guard's fresh target exceeded the count before every iteration that ran, and the loop ends at a fresh target or after a sentinel; it succeeds whenever min <= max, the image size is positive, every pick finds files and no search raises |
| Scene.Iterate | app/image_generator.py:224-242 | one pass keeps the invariant and adds one object, and it succeeds iff the pick finds files, the search from the previous location on the current canvas does not raise, and the image size is positive |
| Scene.SpawnerTotal | app/utils.py:45 | with a positive boundary radius no location search raises |
| Scene.GenerateImage | app/image_generator.py:191-242 | the loop with the default ratios and the real search: no categories and an empty range raise; a result has the invariant, the guard held before every iteration and the stop reason is recorded; with min <= max, a positive image size and radius, it succeeds for given ratios whose every pick finds files, and for the default ratios when every category has files |
| Scene.PlacementsValid | app/image_generator.py:226-228 | every recorded location is the sentinel or passed both tests against the canvas its search saw |

## Left out

- Image and file I/O: opening, resizing and converting object images, backgrounds, PNG/GIF saving, the annotation
  file, directory creation and timing (app/image_generator.py:195-213, 233-237, 244-262). These are PIL and
  filesystem calls. The outer loop over `number_images` is left out as well; it repeats the per-image loop.
- Pasting is an oracle that keeps the canvas size. Whatever PIL does with a box whose size differs from the
  object's (the sentinel, a zero-size box, an odd-size teleport box) is decided by PIL and is not modelled.
- `getRandomCoordinate` is modelled only through the teleport centres, which can be any points. The radius bias,
  the float sine and cosine, and the range of the radius are not modelled. What is modelled is that
  `random.randrange(0, r)` raises when r <= 0.
- Geometry.DirectionOffset: `translateBoxInPolarCoords` works in floats. The model uses the integer offset per
  direction that the rounding gives: 0 or +-d on the axes, and round(d / sqrt 2) on the diagonals, which is never
  a tie. Float error in `sin`/`cos` of multiples of pi/4 is assumed not to move a rounding.
- Overlap.IsCoordinateEmpty: requires the top-left to be inside the canvas. Out-of-range boxes would read Python's
  negative-index slices; the model tests bounds first, and those boxes fail the bounds test anyway.
- Scene.Annotate: the annotation values are exact reals; the `:.4f` formatting and float division are not
  modelled.
- Scene.Spawner: a canvas whose length is not W*H cannot come from `Image.getdata()`, and is answered with the
  sentinel.
- Scene.PlaceObjects: an `image_size` of 0 raises at the annotation's division. The model returns that error
  before recording the iteration; the source has already pasted and counted at that point.
- Settings.Config: the canvas is square (`image_width` and `image_height` are both `image_size`).
- `random.choice` of the object file is only checked for an empty category. The file drawn is folded into the
  paste oracle, which takes the iteration index, so two iterations may paste different pixels for the same
  category and box.
- `getFilePathsFromDirectory` is filesystem I/O in the constructor (app/image_generator.py:34-41). It builds
  `scatter_object_paths`, which `_getNextObject` indexes at line 52. The model keeps only the number of files per
  category (`assetCounts`).
- `randomizeWithinVariance` is never called, and app/cli.py is command-line glue.
- Sampler.PickCategory / Sampler.DefaultRatios: the ratios, the running sum `cum_ratio` and the draw of
  `random.random()` are exact reals. Float accumulation is not modelled: ten shares of 1/10 added with `+=` give
  0.9999999999999999 in Python, not 1, and every boundary S_k is really a float running sum. The last-index
  fallback at app/image_generator.py:50 absorbs that error at the tail.
- Placement.MakePlan: the coin test `rand_num < 1 - cluster_idx` compares exact reals. The float subtraction is
  not modelled.

=== FILE: boundary.dfy ===
/** The bounds test: a rectangular margin check combined with the circular crop. */
module Boundary {
  import opened Geometry
  import opened Settings

  /** All four coordinates, bottom-right included, lie in [0, W - S] across and [0, H - S] down. */
  predicate InRectangle(cfg: Config, b: Box) {
    var maxX := cfg.Width() - cfg.objectSize;
    var maxY := cfg.Height() - cfg.objectSize;
    0 <= b.left <= maxX && 0 <= b.right <= maxX &&
    0 <= b.top <= maxY && 0 <= b.bottom <= maxY
  }

  /** A centre no farther than the boundary radius from (W/2, H/2), in doubled integer coordinates. */
  predicate InCircle(cfg: Config, c: Point) {
    var r := cfg.BoundaryRadius();
    var dx := 2 * c.x - cfg.Width();
    var dy := 2 * c.y - cfg.Height();
    r >= 0 && dx * dx + dy * dy <= 4 * r * r
  }

  /**
   * _isCoordinateWithinBounds. The circle part follows the source in real arithmetic: the centre is
   * computed from the top-left corner and compared with (W/2, H/2); math.dist(p, q) > r is written as
   * r < 0 or |p - q|^2 > r^2, since a distance is never negative.
   */
  function IsCoordinateWithinBounds(cfg: Config, b: Box): (ok: bool)
    ensures ok <==> InRectangle(cfg, b) && InCircle(cfg, BoundingBoxToCenter(b, cfg.objectSize))
    ensures ok ==> 0 <= b.left <= cfg.Width() - cfg.objectSize && 0 <= b.top <= cfg.Height() - cfg.objectSize
  {
    var w := cfg.Width();
    var h := cfg.Height();
    var s := cfg.objectSize;
    var overflowsHorizontal := b.left < 0 || b.right < 0 || b.left > w - s || b.right > w - s;
    var overflowsVertical := b.top < 0 || b.bottom < 0 || b.top > h - s || b.bottom > h - s;
    var c := BoundingBoxToCenter(b, s);
    var dx := c.x as real - w as real / 2.0;
    var dy := c.y as real - h as real / 2.0;
    var r := cfg.BoundaryRadius();
    var overflowsCircle := r < 0 || dx * dx + dy * dy > (r * r) as real;
    CircleTest(cfg, c, dx, dy);
    !(overflowsHorizontal || overflowsVertical || overflowsCircle)
  }

  /** The real-valued distance test of the source and the doubled integer one agree. */
  lemma CircleTest(cfg: Config, c: Point, dx: real, dy: real)
    requires dx == c.x as real - cfg.Width() as real / 2.0
    requires dy == c.y as real - cfg.Height() as real / 2.0
    ensures var r := cfg.BoundaryRadius();
            (r < 0 || dx * dx + dy * dy > (r * r) as real) <==> !InCircle(cfg, c)
  {
    DoubledDistance(c.x, cfg.Width(), dx);
    DoubledDistance(c.y, cfg.Height(), dy);
  }

  lemma DoubledDistance(c: int, size: int, d: real)
    requires d == c as real - size as real / 2.0
    ensures 4.0 * (d * d) == ((2 * c - size) * (2 * c - size)) as real
  {
    var a := 2 * c - size;
    assert d == a as real / 2.0;
    assert d * d == (a as real * a as real) / 4.0;
  }

  /**
   * Because the bottom-right corner is checked against W - S too, an S x S box passes only with its
   * top-left in [0, W - 2S] x [0, H - 2S]: a strip of width S on the right and at the bottom is never used.
   */
  lemma SquareBoxBounds(cfg: Config, b: Box)
    requires Width(b) == cfg.objectSize && Height(b) == cfg.objectSize
    ensures IsCoordinateWithinBounds(cfg, b) <==>
              0 <= b.left <= cfg.Width() - 2 * cfg.objectSize &&
              0 <= b.top <= cfg.Height() - 2 * cfg.objectSize &&
              InCircle(cfg, BoundingBoxToCenter(b, cfg.objectSize))
  {
  }

  /**
   * With the defaults (500 px canvas, 18 px objects, padding 10) a box touching the right edge region is refused
   * although it fits.
   */
  lemma RightStripRefused()
    ensures var cfg := Config(500, 18, 10);
            var b := Box(480, 240, 498, 258);
            b.right <= cfg.Width() && InCircle(cfg, BoundingBoxToCenter(b, 18)) &&
            !IsCoordinateWithinBounds(cfg, b)
  {
  }

  /** The sentinel never passes the bounds test, so a returned valid box is never mistaken for it. */
  lemma SentinelOutOfBounds(cfg: Config)
    ensures !IsCoordinateWithinBounds(cfg, InvalidLocation)
  {
  }
}

=== FILE: geometry.dfy ===
/** The integer box and centre helpers of the utility class (app/utils.py). */
module Geometry {

  datatype Point = Point(x: int, y: int)

  /** A box as (top_left_x, top_left_y, bot_right_x, bot_right_y). */
  datatype Box = Box(left: int, top: int, right: int, bottom: int)

  function Width(b: Box): int {
    b.right - b.left
  }

  function Height(b: Box): int {
    b.bottom - b.top
  }

  /** Python's round(n / 2): the nearest integer to n/2, a tie going to the even neighbour. */
  function RoundHalf(n: int): (r: int)
    ensures n - 1 <= 2 * r <= n + 1
    ensures n % 2 == 0 ==> 2 * r == n
    ensures n % 2 == 1 ==> r % 2 == 0
  {
    if n % 2 == 0 then n / 2
    else if (n - 1) / 2 % 2 == 0 then (n - 1) / 2
    else (n + 1) / 2
  }

  /** centerToBoundingBox(c, (size, size)): each corner is round(c -/+ size/2). */
  function CenterToBoundingBox(c: Point, size: nat): (b: Box)
    ensures size % 2 == 0 ==>
              b == Box(c.x - size / 2, c.y - size / 2, c.x + size / 2, c.y + size / 2)
  {
    Box(RoundHalf(2 * c.x - size), RoundHalf(2 * c.y - size),
        RoundHalf(2 * c.x + size), RoundHalf(2 * c.y + size))
  }

  /** boundingBoxToCenter(b, (size, size)): round(top_left + size/2); the bottom-right corner is never read. */
  function BoundingBoxToCenter(b: Box, size: nat): (c: Point)
    ensures 2 * b.left + size - 1 <= 2 * c.x <= 2 * b.left + size + 1
    ensures 2 * b.top + size - 1 <= 2 * c.y <= 2 * b.top + size + 1
    ensures size % 2 == 0 ==> c == Point(b.left + size / 2, b.top + size / 2)
  {
    Point(RoundHalf(2 * b.left + size), RoundHalf(2 * b.top + size))
  }

  /** translateBoxInPolarCoords with the polar displacement already rounded to an integer offset. */
  function TranslateBox(b: Box, offset: Point): (t: Box)
    ensures t.left == b.left + offset.x && t.top == b.top + offset.y
    ensures Width(t) == Width(b) && Height(t) == Height(b)
  {
    Box(b.left + offset.x, b.top + offset.y, b.right + offset.x, b.bottom + offset.y)
  }

  function Square(n: int): int {
    n * n
  }

  /**
   * round(d * sin(pi/4)): the integer nearest d / sqrt(2), found by counting up from 0 (DiagonalStepBounds
   * states the rounding). It is never a tie, because 2*d*d is even and an odd square is odd.
   */
  function DiagonalStep(d: nat): (m: nat)
    ensures m <= d
  {
    NearestFrom(d, 0)
  }

  /** The first k >= m with 2d^2 < (2k + 1)^2. */
  function NearestFrom(d: nat, m: nat): (k: nat)
    requires m <= d
    ensures m <= k <= d
    decreases d - m
  {
    if 2 * Square(d) < Square(2 * m + 1) then m
    else
      assert m < d by {
        if m == d {
          TopSquare(d);
        }
      }
      NearestFrom(d, m + 1)
  }

  /** The count-up stops at the integer nearest d / sqrt(2): (2k - 1)^2 < 2d^2 < (2k + 1)^2. */
  lemma {:induction false} NearestFromBounds(d: nat, m: nat)
    requires m <= d
    requires m == 0 || Square(2 * m - 1) < 2 * Square(d)
    ensures var k := NearestFrom(d, m);
            (k == 0 || Square(2 * k - 1) < 2 * Square(d)) && 2 * Square(d) < Square(2 * k + 1)
    decreases d - m
  {
    if !(2 * Square(d) < Square(2 * m + 1)) {
      NearestStep(d, m);
      NearestFromBounds(d, m + 1);
    }
  }

  /** Counting past m: m < d, and (2m + 1)^2 <= 2d^2 is strict, an odd number never equalling an even one. */
  lemma NearestStep(d: nat, m: nat)
    requires m <= d && Square(2 * m + 1) <= 2 * Square(d)
    ensures m + 1 <= d && Square(2 * (m + 1) - 1) < 2 * Square(d)
  {
    if m == d {
      TopSquare(d);
    }
    OddSquare(m);
    assert 2 * (m + 1) - 1 == 2 * m + 1;
  }

  /** round(d / sqrt(2)) as the unique m with (2m - 1)^2 < 2d^2 < (2m + 1)^2. */
  lemma DiagonalStepBounds(d: nat)
    ensures var m := DiagonalStep(d);
            (m == 0 || Square(2 * m - 1) < 2 * Square(d)) && 2 * Square(d) < Square(2 * m + 1)
  {
    NearestFromBounds(d, 0);
  }

  lemma OddSquare(m: int)
    ensures Square(2 * m + 1) == 2 * (2 * m * m + 2 * m) + 1
  {
  }

  lemma TopSquare(d: nat)
    ensures 2 * Square(d) < Square(2 * d + 1)
  {
    assert Square(2 * d + 1) == 4 * (d * d) + 4 * d + 1;
  }

  /**
   * The offset (round(distance * sin a), round(distance * cos a)) for the angle a = direction * pi/4.
   * On the axes the float sine and cosine are 0 or +-1 up to about 1e-16, which rounds away;
   * on the diagonals both have magnitude 1/sqrt(2).
   */
  function DirectionOffset(direction: int, distance: nat): (off: Point)
    ensures direction % 2 == 0 ==> (off.x == 0 || off.y == 0) && Abs(off.x) + Abs(off.y) == distance
    ensures direction % 2 == 1 ==> Abs(off.x) == Abs(off.y) == DiagonalStep(distance)
  {
    var m: int := DiagonalStep(distance);
    var dist: int := distance;
    var k := direction % 8;
    if k == 0 then Point(0, dist)
    else if k == 1 then Point(m, m)
    else if k == 2 then Point(dist, 0)
    else if k == 3 then Point(m, -m)
    else if k == 4 then Point(0, -dist)
    else if k == 5 then Point(-m, -m)
    else if k == 6 then Point(-dist, 0)
    else Point(-m, m)
  }

  function Abs(n: int): nat {
    if n < 0 then -n else n
  }

  function Sign(n: int): int {
    if n > 0 then 1 else if n < 0 then -1 else 0
  }

  /** The sign of sin(k * pi/4): positive for k = 1, 2, 3 (mod 8), negative for 5, 6, 7. */
  function SinSign(k: int): int {
    var j := k % 8;
    if 1 <= j <= 3 then 1 else if 5 <= j <= 7 then -1 else 0
  }

  /** The sign of cos(k * pi/4): positive for k = 7, 0, 1 (mod 8), negative for 3, 4, 5. */
  function CosSign(k: int): int {
    SinSign(k + 2)
  }

  /** A step in direction k points the way the angle k * pi/4 does: x along its sine, y along its cosine. */
  lemma DirectionOffsetFollowsAngle(direction: int, distance: nat)
    requires distance > 0
    ensures var off := DirectionOffset(direction, distance);
            Sign(off.x) == SinSign(direction) && Sign(off.y) == CosSign(direction)
  {
    DiagonalStepPositive(distance);
    assert (direction + 2) % 8 == (direction % 8 + 2) % 8;
  }

  /** On the axes (even directions) a step is `distance` long. */
  lemma AxisStepLength(direction: int, distance: nat)
    requires direction % 2 == 0
    ensures var off := DirectionOffset(direction, distance);
            Square(off.x) + Square(off.y) == Square(distance)
  {
    var dist: int := distance;
    var k := direction % 8;
    assert k % 2 == 0;
    assert k == 0 || k == 2 || k == 4 || k == 6;
    SquareNegate(dist);
  }

  /** On the diagonals (odd directions) both legs of a step are the rounded distance / sqrt(2). */
  lemma DiagonalStepLength(direction: int, distance: nat)
    requires direction % 2 == 1
    ensures var off := DirectionOffset(direction, distance);
            Square(off.x) == Square(off.y) == Square(DiagonalStep(distance))
  {
    var m: int := DiagonalStep(distance);
    var k := direction % 8;
    SquareNegate(m);
    assert k % 2 == 1;
    if k == 1 || k == 7 {
      assert DirectionOffset(direction, distance).y == m;
    } else {
      assert DirectionOffset(direction, distance).y == -m;
    }
  }

  lemma SquareNegate(n: int)
    ensures Square(-n) == Square(n)
  {
  }

  /** The last direction, the angle 2pi, steps straight along +y: sin 2pi rounds to 0 and cos 2pi is 1. */
  lemma FullTurnStep(distance: nat)
    ensures DirectionOffset(8, distance) == Point(0, distance)
  {
  }

  /** The rounded diagonal is the only m with (2m - 1)^2 < 2d^2 < (2m + 1)^2. */
  lemma DiagonalStepIsNearest(d: nat, m: nat)
    requires m == 0 || Square(2 * m - 1) < 2 * Square(d)
    requires 2 * Square(d) < Square(2 * m + 1)
    ensures DiagonalStep(d) == m
  {
    var k := DiagonalStep(d);
    DiagonalStepBounds(d);
    if k > 0 {
      SquareOrder(2 * k - 1, 2 * m + 1);
    }
    if m > 0 {
      SquareOrder(2 * m - 1, 2 * k + 1);
    }
  }

  /** Squares of naturals are ordered as the naturals are. */
  lemma SquareOrder(a: nat, b: nat)
    ensures Square(a) < Square(b) ==> a < b
  {
    if a >= b {
      assert a * a >= b * a >= b * b;
    }
  }

  lemma DiagonalStepPositive(d: nat)
    requires d > 0
    ensures DiagonalStep(d) > 0
  {
    DiagonalStepBounds(d);
    assert Square(d) >= 1 by {
      assert d * d >= d * 1;
    }
  }

  /** For an even size the centre-to-box-to-centre round trip is exact. */
  lemma RoundTripEvenSize(c: Point, size: nat)
    requires size % 2 == 0
    ensures BoundingBoxToCenter(CenterToBoundingBox(c, size), size) == c
  {
  }

  /**
   * For an odd size every corner is a .5 tie, so the box is one pixel wider or narrower than the size:
   * wider exactly when c - (size + 1) / 2 is even, so that both corners round outwards.
   */
  lemma OddSizeWidth(c: Point, size: nat)
    requires size % 2 == 1
    ensures var b := CenterToBoundingBox(c, size);
            (Width(b) == size + 1 || Width(b) == size - 1) &&
            (Width(b) == size + 1 <==> (c.x - (size + 1) / 2) % 2 == 0) &&
            (Height(b) == size + 1 || Height(b) == size - 1) &&
            (Height(b) == size + 1 <==> (c.y - (size + 1) / 2) % 2 == 0)
  {
  }

  /** For an odd size the round trip is off by at most one, and sometimes it is off. */
  lemma RoundTripOddSize(c: Point, size: nat)
    requires size % 2 == 1
    ensures var c' := BoundingBoxToCenter(CenterToBoundingBox(c, size), size);
            -1 <= c'.x - c.x <= 1 && -1 <= c'.y - c.y <= 1
  {
  }

  /**
   * The odd-size corners land on .5 ties: centre 10 with size 3 gives corners 8 and 12, a box of width 4,
   * and centre 11 comes back as 12.
   */
  lemma OddSizeTies()
    ensures CenterToBoundingBox(Point(10, 10), 3) == Box(8, 8, 12, 12)
    ensures Width(CenterToBoundingBox(Point(10, 10), 3)) == 4
    ensures BoundingBoxToCenter(CenterToBoundingBox(Point(11, 11), 3), 3) == Point(12, 12)
  {
  }
}

=== FILE: overlap.dfy ===
/** The overlap test: an S x S window of the flat row-major RGBA buffer and its channel sum. */
module Overlap {
  import opened Geometry
  import opened Settings

  type Channel = c: int | 0 <= c < 256

  /** One RGBA pixel as returned by Image.getdata(). */
  datatype Pixel = Pixel(red: Channel, green: Channel, blue: Channel, alpha: Channel)

  const MaxPixelSum: nat := 4 * 255

  function PixelSum(p: Pixel): nat {
    p.red + p.green + p.blue + p.alpha
  }

  /** The sum of every channel of every pixel, added up from the front. */
  function ChannelTotal(ps: seq<Pixel>): (s: nat)
    ensures s <= MaxPixelSum * |ps|
  {
    if |ps| == 0 then 0
    else ChannelTotal(ps[..|ps| - 1]) + PixelSum(ps[|ps| - 1])
  }

  /** The buffer is the whole canvas and the top-left (x, y) leaves room for an S x S window. */
  predicate InCanvas(cfg: Config, pixels: seq<Pixel>, x: int, y: int) {
    |pixels| == cfg.Width() * cfg.Height() &&
    0 <= x <= cfg.Width() - cfg.objectSize &&
    0 <= y <= cfg.Height() - cfg.objectSize
  }

  lemma RowInRange(cfg: Config, pixels: seq<Pixel>, x: int, y: int, k: nat)
    requires InCanvas(cfg, pixels, x, y) && k < cfg.objectSize
    ensures 0 <= cfg.Width() * (y + k) + x
    ensures cfg.Width() * (y + k) + x + cfg.objectSize <= |pixels|
  {
    var w := cfg.Width();
    assert y + k + 1 <= cfg.Height();
    assert w * (y + k) + w == w * (y + k + 1);
    assert w * (y + k + 1) <= w * cfg.Height();
  }

  /** Row k of the window: pixels[W*(y+k)+x .. W*(y+k)+x+S]. */
  function RowPixels(cfg: Config, pixels: seq<Pixel>, x: int, y: int, k: nat): (row: seq<Pixel>)
    requires InCanvas(cfg, pixels, x, y) && k < cfg.objectSize
    ensures |row| == cfg.objectSize
  {
    RowInRange(cfg, pixels, x, y, k);
    pixels[cfg.Width() * (y + k) + x .. cfg.Width() * (y + k) + x + cfg.objectSize]
  }

  /** The first `rows` rows of the window, concatenated in order. */
  function Window(cfg: Config, pixels: seq<Pixel>, x: int, y: int, rows: nat): (w: seq<Pixel>)
    requires InCanvas(cfg, pixels, x, y) && rows <= cfg.objectSize
    ensures |w| == rows * cfg.objectSize
  {
    if rows == 0 then []
    else Window(cfg, pixels, x, y, rows - 1) + RowPixels(cfg, pixels, x, y, rows - 1)
  }

  /** _calculateLocationPixels: S slices of S pixels, the offset advancing by one canvas row each time. */
  method CalculateLocationPixels(cfg: Config, pixels: seq<Pixel>, x: int, y: int)
    returns (location: seq<Pixel>)
    requires InCanvas(cfg, pixels, x, y)
    ensures |location| == cfg.objectSize * cfg.objectSize
    ensures location == Window(cfg, pixels, x, y, cfg.objectSize)
  {
    var topOffset := cfg.Width() * y;
    var leftOffset := x;
    location := [];
    var k := 0;
    while k < cfg.objectSize
      invariant 0 <= k <= cfg.objectSize
      invariant topOffset == cfg.Width() * (y + k)
      invariant location == Window(cfg, pixels, x, y, k)
    {
      RowInRange(cfg, pixels, x, y, k);
      ghost var row := RowPixels(cfg, pixels, x, y, k);
      assert pixels[topOffset + leftOffset .. topOffset + leftOffset + cfg.objectSize] == row;
      location := location + pixels[topOffset + leftOffset .. topOffset + leftOffset + cfg.objectSize];
      NextRowOffset(cfg.Width(), y, k);
      topOffset := topOffset + cfg.Width();
      k := k + 1;
    }
  }

  lemma NextRowOffset(w: int, y: int, k: int)
    ensures w * (y + k) + w == w * (y + (k + 1))
  {
  }

  /** Row k of the window, as stated by its slice of the result. */
  lemma {:induction false} WindowRow(cfg: Config, pixels: seq<Pixel>, x: int, y: int, rows: nat, k: nat)
    requires InCanvas(cfg, pixels, x, y) && k < rows <= cfg.objectSize
    ensures k * cfg.objectSize + cfg.objectSize <= rows * cfg.objectSize
    ensures Window(cfg, pixels, x, y, rows)[k * cfg.objectSize .. k * cfg.objectSize + cfg.objectSize]
            == RowPixels(cfg, pixels, x, y, k)
    decreases rows
  {
    var s := cfg.objectSize;
    var prefix := Window(cfg, pixels, x, y, rows - 1);
    assert |prefix| == (rows - 1) * s;
    assert (rows - 1) * s + s == rows * s;
    if k < rows - 1 {
      WindowRow(cfg, pixels, x, y, rows - 1, k);
    } else {
      assert k * s == (rows - 1) * s;
    }
  }

  /** Row k of the window is the canvas slice starting at index W*(y+k)+x, S pixels long. */
  lemma WindowRowIsSlice(cfg: Config, pixels: seq<Pixel>, x: int, y: int, k: nat)
    requires InCanvas(cfg, pixels, x, y) && k < cfg.objectSize
    ensures k * cfg.objectSize + cfg.objectSize <= cfg.objectSize * cfg.objectSize
    ensures 0 <= cfg.Width() * (y + k) + x && cfg.Width() * (y + k) + x + cfg.objectSize <= |pixels|
    ensures Window(cfg, pixels, x, y, cfg.objectSize)[k * cfg.objectSize .. k * cfg.objectSize + cfg.objectSize]
            == pixels[cfg.Width() * (y + k) + x .. cfg.Width() * (y + k) + x + cfg.objectSize]
  {
    WindowRow(cfg, pixels, x, y, cfg.objectSize, k);
    RowInRange(cfg, pixels, x, y, k);
  }

  /** The window total added up pixel by pixel over the canvas indices, without slicing. */
  function GridRowTotal(cfg: Config, pixels: seq<Pixel>, x: int, y: int, k: nat, columns: nat): nat
    requires InCanvas(cfg, pixels, x, y) && k < cfg.objectSize && columns <= cfg.objectSize
  {
    if columns == 0 then 0
    else
      RowInRange(cfg, pixels, x, y, k);
      GridRowTotal(cfg, pixels, x, y, k, columns - 1) + PixelSum(pixels[cfg.Width() * (y + k) + x + columns - 1])
  }

  function GridTotal(cfg: Config, pixels: seq<Pixel>, x: int, y: int, rows: nat): nat
    requires InCanvas(cfg, pixels, x, y) && rows <= cfg.objectSize
  {
    if rows == 0 then 0
    else GridTotal(cfg, pixels, x, y, rows - 1) + GridRowTotal(cfg, pixels, x, y, rows - 1, cfg.objectSize)
  }

  lemma {:induction false} ChannelTotalAppend(a: seq<Pixel>, b: seq<Pixel>)
    ensures ChannelTotal(a + b) == ChannelTotal(a) + ChannelTotal(b)
    decreases |b|
  {
    if |b| == 0 {
      assert a + b == a;
    } else {
      var b' := b[..|b| - 1];
      var last := b[|b| - 1];
      ChannelTotalAppend(a, b');
      assert b == b' + [last];
      assert a + b == (a + b') + [last];
      ChannelTotalSnoc(a + b', last);
      ChannelTotalSnoc(b', last);
    }
  }

  lemma ChannelTotalSnoc(a: seq<Pixel>, p: Pixel)
    ensures ChannelTotal(a + [p]) == ChannelTotal(a) + PixelSum(p)
  {
    assert (a + [p])[..|a|] == a;
  }

  lemma {:induction false} RowTotal(cfg: Config, pixels: seq<Pixel>, x: int, y: int, k: nat, columns: nat)
    requires InCanvas(cfg, pixels, x, y) && k < cfg.objectSize && columns <= cfg.objectSize
    ensures ChannelTotal(RowPixels(cfg, pixels, x, y, k)[..columns]) == GridRowTotal(cfg, pixels, x, y, k, columns)
    decreases columns
  {
    if columns > 0 {
      var row := RowPixels(cfg, pixels, x, y, k);
      RowTotal(cfg, pixels, x, y, k, columns - 1);
      assert row[..columns][..columns - 1] == row[..columns - 1];
      RowInRange(cfg, pixels, x, y, k);
      assert row[columns - 1] == pixels[cfg.Width() * (y + k) + x + columns - 1];
    }
  }

  lemma {:induction false} WindowTotal(cfg: Config, pixels: seq<Pixel>, x: int, y: int, rows: nat)
    requires InCanvas(cfg, pixels, x, y) && rows <= cfg.objectSize
    ensures ChannelTotal(Window(cfg, pixels, x, y, rows)) == GridTotal(cfg, pixels, x, y, rows)
    decreases rows
  {
    if rows > 0 {
      WindowTotal(cfg, pixels, x, y, rows - 1);
      var row := RowPixels(cfg, pixels, x, y, rows - 1);
      ChannelTotalAppend(Window(cfg, pixels, x, y, rows - 1), row);
      RowTotal(cfg, pixels, x, y, rows - 1, cfg.objectSize);
      assert row[..cfg.objectSize] == row;
    }
  }

  /**
   * _isCoordinateEmpty: the summed channels of the S x S window at the box's top-left corner stay
   * strictly below the threshold.
   */
  function IsCoordinateEmpty(cfg: Config, pixels: seq<Pixel>, b: Box): (empty: bool)
    requires InCanvas(cfg, pixels, b.left, b.top)
    ensures empty <==> GridTotal(cfg, pixels, b.left, b.top, cfg.objectSize) < OverlapPixelThreshold
  {
    WindowTotal(cfg, pixels, b.left, b.top, cfg.objectSize);
    ChannelTotal(Window(cfg, pixels, b.left, b.top, cfg.objectSize)) < OverlapPixelThreshold
  }

  /** With S*S*1020 below the threshold (S <= 7) no window can ever be full enough to count as occupied. */
  lemma SmallObjectsAlwaysEmpty(cfg: Config, pixels: seq<Pixel>, b: Box)
    requires InCanvas(cfg, pixels, b.left, b.top)
    requires MaxPixelSum * (cfg.objectSize * cfg.objectSize) < OverlapPixelThreshold
    ensures IsCoordinateEmpty(cfg, pixels, b)
  {
    var w := Window(cfg, pixels, b.left, b.top, cfg.objectSize);
    assert |w| == cfg.objectSize * cfg.objectSize;
    assert ChannelTotal(w) <= MaxPixelSum * |w|;
  }

  /** Emptiness reads only the window: two canvases that agree on its rows agree on emptiness. */
  lemma {:induction false} EmptinessReadsOnlyWindow(cfg: Config, p: seq<Pixel>, q: seq<Pixel>, b: Box)
    requires InCanvas(cfg, p, b.left, b.top) && InCanvas(cfg, q, b.left, b.top)
    requires forall k :: 0 <= k < cfg.objectSize ==>
               RowPixels(cfg, p, b.left, b.top, k) == RowPixels(cfg, q, b.left, b.top, k)
    ensures IsCoordinateEmpty(cfg, p, b) == IsCoordinateEmpty(cfg, q, b)
  {
    SameRowsSameWindow(cfg, p, q, b.left, b.top, cfg.objectSize);
  }

  lemma {:induction false} SameRowsSameWindow(cfg: Config, p: seq<Pixel>, q: seq<Pixel>, x: int, y: int, rows: nat)
    requires InCanvas(cfg, p, x, y) && InCanvas(cfg, q, x, y) && rows <= cfg.objectSize
    requires forall k :: 0 <= k < cfg.objectSize ==> RowPixels(cfg, p, x, y, k) == RowPixels(cfg, q, x, y, k)
    ensures Window(cfg, p, x, y, rows) == Window(cfg, q, x, y, rows)
    decreases rows
  {
    if rows > 0 {
      SameRowsSameWindow(cfg, p, q, x, y, rows - 1);
    }
  }

  /** A fully transparent black canvas (the fresh Image.new("RGBA", ...)) is empty everywhere. */
  lemma BlankCanvasEmpty(cfg: Config, pixels: seq<Pixel>, b: Box)
    requires InCanvas(cfg, pixels, b.left, b.top)
    requires forall i :: 0 <= i < |pixels| ==> pixels[i] == Pixel(0, 0, 0, 0)
    ensures IsCoordinateEmpty(cfg, pixels, b)
  {
    var w := Window(cfg, pixels, b.left, b.top, cfg.objectSize);
    WindowFromCanvas(cfg, pixels, b.left, b.top, cfg.objectSize);
    assert forall i :: 0 <= i < |w| ==> w[i] in pixels;
    ZeroTotal(w);
  }

  /** Every pixel of the window is a pixel of the canvas. */
  lemma {:induction false} WindowFromCanvas(cfg: Config, pixels: seq<Pixel>, x: int, y: int, rows: nat)
    requires InCanvas(cfg, pixels, x, y) && rows <= cfg.objectSize
    ensures forall p :: p in Window(cfg, pixels, x, y, rows) ==> p in pixels
    decreases rows
  {
    if rows > 0 {
      WindowFromCanvas(cfg, pixels, x, y, rows - 1);
      RowInRange(cfg, pixels, x, y, rows - 1);
    }
  }

  lemma {:induction false} ZeroTotal(ps: seq<Pixel>)
    requires forall i :: 0 <= i < |ps| ==> ps[i] == Pixel(0, 0, 0, 0)
    ensures ChannelTotal(ps) == 0
    decreases |ps|
  {
    if |ps| > 0 {
      ZeroTotal(ps[..|ps| - 1]);
    }
  }
}

=== FILE: placement.dfy ===
/**
 * _getNextSpawnLocation: a retry-bounded search that starts with a teleport (a fresh random centre) or a
 * step (the incoming box translated in one of eight directions), steps through the remaining directions,
 * then keeps teleporting, and returns the first valid candidate or the sentinel.
 */
module Placement {
  import opened Results
  import opened Geometry
  import opened Settings
  import opened Overlap
  import opened Boundary
  import opened Shuffling

  /**
   * The random choices of one call: the random.random() draw compared with the separation chance,
   * the draws random.shuffle makes, and the successive centres getRandomCoordinate would return.
   */
  datatype SearchOracle = SearchOracle(coin: real, shuffleDraws: nat -> nat, teleports: nat -> Point)

  /** How a candidate was produced: around a fresh centre, or by translating the incoming box. */
  datatype Move = Teleport(centre: Point) | Step(direction: int)

  /** One evaluated candidate and whether it passed both tests. */
  datatype Attempt = Attempt(move: Move, box: Box, accepted: bool)

  /** Every candidate in the order evaluated, and the location returned. */
  datatype Outcome = Outcome(attempts: seq<Attempt>, location: Box)

  /**
   * The order of moves fixed before the first candidate: whether it opens with a teleport, the direction
   * list that is popped from its end, and the teleport centres in the order they are drawn.
   */
  datatype Plan = Plan(opensWithTeleport: bool, queue: seq<int>, teleports: nat -> Point)

  /** angle_choices: the angles i * pi/4 for i in 1..8, kept as the multiplier i. */
  const AngleChoices: seq<int> := [1, 2, 3, 4, 5, 6, 7, 8]

  lemma AngleChoicesDistinct()
    ensures Distinct(AngleChoices)
    ensures forall k :: 0 <= k < |AngleChoices| ==> AngleChoices[k] == k + 1
  {
  }

  /**
   * A candidate is accepted when it is within bounds and its window is empty; bounds are tested first so the
   * window exists.
   */
  function IsValidLocation(cfg: Config, pixels: seq<Pixel>, b: Box): (ok: bool)
    requires |pixels| == cfg.Width() * cfg.Height()
    ensures ok <==> IsCoordinateWithinBounds(cfg, b) &&
                    GridTotal(cfg, pixels, b.left, b.top, cfg.objectSize) < OverlapPixelThreshold
    ensures ok ==> b != InvalidLocation
  {
    IsCoordinateWithinBounds(cfg, b) && IsCoordinateEmpty(cfg, pixels, b)
  }

  /**
   * The box of a move: a teleport builds the box around its centre, a step translates the incoming box. A step
   * keeps the incoming box's size; a teleport gives an S x S box when S is even.
   */
  function MoveBox(cfg: Config, curr: Box, m: Move): (b: Box)
    ensures m.Step? ==> Width(b) == Width(curr) && Height(b) == Height(curr)
    ensures m.Step? ==> b.left - curr.left == DirectionOffset(m.direction, cfg.StepDistance()).x &&
                        b.top - curr.top == DirectionOffset(m.direction, cfg.StepDistance()).y
    ensures m.Teleport? && cfg.objectSize % 2 == 0 ==> Width(b) == cfg.objectSize && Height(b) == cfg.objectSize
  {
    match m
    case Teleport(c) => CenterToBoundingBox(c, cfg.objectSize)
    case Step(d) => TranslateBox(curr, DirectionOffset(d, cfg.StepDistance()))
  }

  /** The acceptance test of the generator: both checks against one canvas snapshot. */
  function Validity(cfg: Config, pixels: seq<Pixel>): (accept: Box -> bool)
    requires |pixels| == cfg.Width() * cfg.Height()
    ensures forall b :: accept(b) == IsValidLocation(cfg, pixels, b)
  {
    b => IsValidLocation(cfg, pixels, b)
  }

  /**
   * The first candidate is a teleport when there is no previous box or the coin falls below the separation
   * chance.
   */
  predicate TeleportsFirst(curr: Box, separationChance: real, o: SearchOracle) {
    curr == InvalidLocation || o.coin < separationChance
  }

  /**
   * The plan of one call. After an opening teleport the list is never shuffled, so it stays in the order
   * 1..8; after an opening step it is the shuffled list, whose last entry is that first step.
   */
  function MakePlan(curr: Box, separationChance: real, o: SearchOracle): (p: Plan)
    ensures p.opensWithTeleport == TeleportsFirst(curr, separationChance, o)
    ensures |p.queue| == |AngleChoices|
    ensures p.opensWithTeleport ==> p.queue == AngleChoices
    ensures p.teleports == o.teleports
  {
    if TeleportsFirst(curr, separationChance, o) then Plan(true, AngleChoices, o.teleports)
    else Plan(false, Shuffle(AngleChoices, o.shuffleDraws), o.teleports)
  }

  /** Either way the direction list holds each of the eight directions exactly once. */
  lemma PlanQueuePermutes(curr: Box, separationChance: real, o: SearchOracle)
    ensures multiset(MakePlan(curr, separationChance, o).queue) == multiset(AngleChoices)
    ensures Distinct(MakePlan(curr, separationChance, o).queue)
  {
    ShufflePermutes(AngleChoices, o.shuffleDraws);
    AngleChoicesDistinct();
    PermutationDistinct(MakePlan(curr, separationChance, o).queue, AngleChoices);
  }

  /** How many candidates precede the steps: one opening teleport, or none. */
  function Opening(p: Plan): nat {
    if p.opensWithTeleport then 1 else 0
  }

  /**
   * The move of candidate i: candidate 0 is the one built before the loop, candidate i >= 1 the one built
   * when retry_count goes from i - 1 to i. Directions are popped from the end of the list, and only once it
   * is empty do teleports follow, each with the next centre.
   */
  function PlannedMove(p: Plan, i: nat): (m: Move)
    ensures i < Opening(p) ==> m == Teleport(p.teleports(0))
    ensures Opening(p) <= i < Opening(p) + |p.queue| ==> m == Step(p.queue[|p.queue| - 1 - (i - Opening(p))])
    ensures i >= Opening(p) + |p.queue| ==> m == Teleport(p.teleports(i - |p.queue|))
  {
    if p.opensWithTeleport && i == 0 then Teleport(p.teleports(0))
    else QueuedMove(p, i - Opening(p))
  }

  /** The move k places after the opening: the k-th pop while the list lasts, then the next teleport. */
  function QueuedMove(p: Plan, k: nat): (m: Move)
    ensures k < |p.queue| ==> var remaining := p.queue[..|p.queue| - k]; m == Step(remaining[|remaining| - 1])
    ensures k >= |p.queue| ==> m.Teleport?
  {
    if k < |p.queue| then Step(p.queue[|p.queue| - 1 - k])
    else Teleport(p.teleports(Opening(p) + k - |p.queue|))
  }

  /** The box of every move from one incoming box: the search is generic in it, as in its acceptance test. */
  function Mover(cfg: Config, curr: Box): (boxOf: Move -> Box)
    ensures forall m :: boxOf(m) == MoveBox(cfg, curr, m)
  {
    m => MoveBox(cfg, curr, m)
  }

  /** Candidate i: the box of the planned move i, and the verdict of the acceptance test. */
  function Candidate(boxOf: Move -> Box, accept: Box -> bool, p: Plan, i: nat): Attempt {
    var m := PlannedMove(p, i);
    var b := boxOf(m);
    Attempt(m, b, accept(b))
  }

  /**
   * The index of the candidate the loop stops at, looking from i on: the first accepted one, or candidate 300
   * once retry_count has reached the limit.
   */
  function Stop(accepted: nat -> bool, i: nat): (n: nat)
    requires i <= RandomLocationRetriesLimit
    ensures i <= n <= RandomLocationRetriesLimit
    ensures forall k :: i <= k < n ==> !accepted(k)
    ensures accepted(n) || n == RandomLocationRetriesLimit
    decreases RandomLocationRetriesLimit - i
  {
    if accepted(i) || i == RandomLocationRetriesLimit then i else Stop(accepted, i + 1)
  }

  /** Whether each candidate passes the acceptance test. */
  function Acceptance(boxOf: Move -> Box, accept: Box -> bool, p: Plan): (accepted: nat -> bool)
    ensures forall k :: accepted(k) == Candidate(boxOf, accept, p, k).accepted
  {
    (k: nat) => Candidate(boxOf, accept, p, k).accepted
  }

  /** The index of the first teleport: 0 when the plan opens with one, else after all the steps. */
  function FirstTeleport(p: Plan): (f: nat)
    ensures PlannedMove(p, f).Teleport?
    ensures forall k :: 0 <= k < f ==> PlannedMove(p, k).Step?
  {
    if p.opensWithTeleport then 0 else |p.queue|
  }

  /** Candidates 0..n in order. */
  function Trace(boxOf: Move -> Box, accept: Box -> bool, p: Plan, n: nat): (attempts: seq<Attempt>)
    ensures |attempts| == n + 1
    ensures forall k :: 0 <= k <= n ==> attempts[k] == Candidate(boxOf, accept, p, k)
  {
    seq(n + 1, k requires 0 <= k <= n => Candidate(boxOf, accept, p, k))
  }

  /**
   * The search loop for a given box of each move and acceptance test. Candidates 0..n are evaluated, n the stop
   * index; if one of them is a teleport while the boundary radius is <= 0, random.randrange(0, r) raises on its
   * empty range. The result is the sentinel or an accepted box, and it is the sentinel only when all 301 were
   * refused.
   */
  function SearchWith(radius: int, boxOf: Move -> Box, accept: Box -> bool, p: Plan): (r: Result<Outcome>)
    ensures r.Ok? ==> 1 <= |r.value.attempts| <= RandomLocationRetriesLimit + 1
    ensures r.Ok? ==> forall i :: 0 <= i < |r.value.attempts| ==>
                        r.value.attempts[i] == Candidate(boxOf, accept, p, i)
    ensures r.Ok? ==> forall i :: 0 <= i < |r.value.attempts| - 1 ==> !r.value.attempts[i].accepted
    ensures r.Ok? && r.value.attempts[|r.value.attempts| - 1].accepted ==>
              r.value.location == r.value.attempts[|r.value.attempts| - 1].box
    ensures r.Ok? && !r.value.attempts[|r.value.attempts| - 1].accepted ==>
              r.value.location == InvalidLocation && |r.value.attempts| == RandomLocationRetriesLimit + 1
    ensures r.Ok? ==> r.value.location == InvalidLocation || accept(r.value.location)
    ensures radius > 0 ==> r.Ok?
    ensures p.opensWithTeleport && radius <= 0 ==> r.Err?
    ensures r.Ok? && radius <= 0 ==> forall i :: 0 <= i < |r.value.attempts| ==> r.value.attempts[i].move.Step?
    ensures r.Err? ==> r.error == EmptyRange && radius <= 0 &&
                       forall k :: 0 <= k < FirstTeleport(p) ==> !Candidate(boxOf, accept, p, k).accepted
  {
    var n := Stop(Acceptance(boxOf, accept, p), 0);
    if radius <= 0 && FirstTeleport(p) <= n then Err(EmptyRange)
    else
      var attempts := Trace(boxOf, accept, p, n);
      Ok(Outcome(attempts, if attempts[n].accepted then attempts[n].box else InvalidLocation))
  }

  /**
   * _getNextSpawnLocation: the search loop with the bounds test and the emptiness test against the canvas
   * snapshot. The box returned is the sentinel or one that passes both.
   */
  function Search(cfg: Config, curr: Box, pixels: seq<Pixel>, separationChance: real, o: SearchOracle)
    : (r: Result<Outcome>)
    requires |pixels| == cfg.Width() * cfg.Height()
    ensures r.Ok? ==> 1 <= |r.value.attempts| <= RandomLocationRetriesLimit + 1
    ensures r.Ok? ==> r.value.location == InvalidLocation || IsValidLocation(cfg, pixels, r.value.location)
    ensures r.Ok? && r.value.location != InvalidLocation ==>
              IsCoordinateWithinBounds(cfg, r.value.location) && IsCoordinateEmpty(cfg, pixels, r.value.location)
    ensures cfg.BoundaryRadius() > 0 ==> r.Ok?
    ensures TeleportsFirst(curr, separationChance, o) && cfg.BoundaryRadius() <= 0 ==> r.Err?
    ensures r.Ok? && cfg.BoundaryRadius() <= 0 ==>
              forall i :: 0 <= i < |r.value.attempts| ==> r.value.attempts[i].move.Step?
    ensures r.Err? ==> r.error == EmptyRange && cfg.BoundaryRadius() <= 0 &&
                       var p := MakePlan(curr, separationChance, o);
                       forall k :: 0 <= k < FirstTeleport(p) ==>
                         !IsValidLocation(cfg, pixels, MoveBox(cfg, curr, PlannedMove(p, k)))
  {
    var p := MakePlan(curr, separationChance, o);
    var r := SearchWith(cfg.BoundaryRadius(), Mover(cfg, curr), Validity(cfg, pixels), p);
    assert r.Err? ==> forall k :: 0 <= k < FirstTeleport(p) ==>
                        !IsValidLocation(cfg, pixels, MoveBox(cfg, curr, PlannedMove(p, k))) by {
      if r.Err? {
        forall k | 0 <= k < FirstTeleport(p)
          ensures !IsValidLocation(cfg, pixels, MoveBox(cfg, curr, PlannedMove(p, k)))
        {
          CandidateVerdict(cfg, curr, pixels, p, k);
        }
      }
    }
    r
  }

  /** The verdict on a candidate of the concrete search is the acceptance test on the box of its move. */
  lemma CandidateVerdict(cfg: Config, curr: Box, pixels: seq<Pixel>, p: Plan, k: nat)
    requires |pixels| == cfg.Width() * cfg.Height()
    ensures Candidate(Mover(cfg, curr), Validity(cfg, pixels), p, k).accepted ==
            IsValidLocation(cfg, pixels, MoveBox(cfg, curr, PlannedMove(p, k)))
  {
  }

  /** The stop index is the first accepted candidate, or 300 when there is none before it. */
  lemma StopIsFirstAccepted(accepted: nat -> bool, k: nat)
    requires k <= RandomLocationRetriesLimit
    requires accepted(k) || k == RandomLocationRetriesLimit
    requires forall j :: 0 <= j < k ==> !accepted(j)
    ensures Stop(accepted, 0) == k
  {
  }

  /**
   * With a positive radius the search returns exactly the first accepted candidate, after evaluating it and
   * the ones before it.
   */
  lemma SearchFindsFirstAccepted(radius: int, boxOf: Move -> Box, accept: Box -> bool, p: Plan, k: nat)
    requires radius > 0 && k <= RandomLocationRetriesLimit
    requires Candidate(boxOf, accept, p, k).accepted
    requires forall j :: 0 <= j < k ==> !Candidate(boxOf, accept, p, j).accepted
    ensures SearchWith(radius, boxOf, accept, p).Ok?
    ensures |SearchWith(radius, boxOf, accept, p).value.attempts| == k + 1
    ensures SearchWith(radius, boxOf, accept, p).value.location == Candidate(boxOf, accept, p, k).box
  {
    StopIsFirstAccepted(Acceptance(boxOf, accept, p), k);
  }

  /**
   * Whatever the radius, a step accepted before the first teleport is returned: randrange is never reached,
   * so a search that opens with a step does not need a positive radius.
   */
  lemma AcceptedBeforeTeleport(radius: int, boxOf: Move -> Box, accept: Box -> bool, p: Plan, k: nat)
    requires k < FirstTeleport(p) && k <= RandomLocationRetriesLimit
    requires Candidate(boxOf, accept, p, k).accepted
    requires forall j :: 0 <= j < k ==> !Candidate(boxOf, accept, p, j).accepted
    ensures SearchWith(radius, boxOf, accept, p).Ok?
    ensures |SearchWith(radius, boxOf, accept, p).value.attempts| == k + 1
    ensures SearchWith(radius, boxOf, accept, p).value.location == Candidate(boxOf, accept, p, k).box
  {
    StopIsFirstAccepted(Acceptance(boxOf, accept, p), k);
  }

  /** The sentinel comes back only when all 301 candidates were refused, for any test that refuses the sentinel. */
  lemma SentinelMeansAllRefused(radius: int, boxOf: Move -> Box, accept: Box -> bool, p: Plan)
    requires !accept(InvalidLocation)
    requires SearchWith(radius, boxOf, accept, p).Ok?
    requires SearchWith(radius, boxOf, accept, p).value.location == InvalidLocation
    ensures forall k :: 0 <= k <= RandomLocationRetriesLimit ==> !Candidate(boxOf, accept, p, k).accepted
  {
    var attempts := SearchWith(radius, boxOf, accept, p).value.attempts;
    var n := |attempts| - 1;
    assert attempts[n] == Candidate(boxOf, accept, p, n);
    assert !attempts[n].accepted;
    forall k | 0 <= k <= RandomLocationRetriesLimit
      ensures !Candidate(boxOf, accept, p, k).accepted
    {
      assert attempts[k] == Candidate(boxOf, accept, p, k);
    }
  }

  /**
   * After an opening teleport the list was never shuffled: candidates 1..8 step in directions 8, 7, ..., 1
   * (2pi down to pi/4) and every later candidate teleports, using the next centre.
   */
  lemma UnshuffledAfterTeleport(p: Plan, i: nat)
    requires p.opensWithTeleport && p.queue == AngleChoices
    ensures 1 <= i <= 8 ==> PlannedMove(p, i) == Step(9 - i)
    ensures i > 8 ==> PlannedMove(p, i) == Teleport(p.teleports(i - 8))
  {
  }

  /** The steps come right after the opening (if any), and every candidate after them teleports. */
  lemma TeleportsAfterSteps(p: Plan, i: nat)
    ensures PlannedMove(p, i).Teleport? <==> i < Opening(p) || i >= Opening(p) + |p.queue|
  {
  }

  /** No direction is tried twice in one search. */
  lemma StepsNeverRepeat(p: Plan, i: nat, j: nat)
    requires Distinct(p.queue)
    requires i != j && PlannedMove(p, i).Step? && PlannedMove(p, j).Step?
    ensures PlannedMove(p, i).direction != PlannedMove(p, j).direction
  {
    var q := p.queue;
    var a := |q| - 1 - (i - Opening(p));
    var b := |q| - 1 - (j - Opening(p));
    assert PlannedMove(p, i).direction == q[a] && PlannedMove(p, j).direction == q[b];
    assert a < b ==> q[a] != q[b];
    assert b < a ==> q[b] != q[a];
  }

  /** Some candidate before the i-th steps in direction d. */
  predicate Tried(p: Plan, i: nat, d: int) {
    exists j :: 0 <= j < i && PlannedMove(p, j) == Step(d)
  }

  /** A teleport after the opening one happens only once all eight directions have been tried. */
  lemma StepsCoverAllDirections(p: Plan, i: nat)
    requires multiset(p.queue) == multiset(AngleChoices)
    requires i >= Opening(p) && PlannedMove(p, i).Teleport?
    ensures forall d :: 1 <= d <= 8 ==> Tried(p, i, d)
  {
    TeleportsAfterSteps(p, i);
    var after := i >= Opening(p) + |p.queue|;
    assert after;
    forall d | 1 <= d <= 8
      ensures Tried(p, i, d)
    {
      AngleInQueue(p.queue, d);
      DirectionTried(p, i, d);
    }
  }

  lemma AngleInQueue(q: seq<int>, d: int)
    requires multiset(q) == multiset(AngleChoices) && 1 <= d <= 8
    ensures d in multiset(q)
  {
    assert AngleChoices[d - 1] == d;
    assert d in multiset(AngleChoices);
  }

  /** A direction in the list is the step of the candidate that pops it, which comes before any later teleport. */
  lemma DirectionTried(p: Plan, i: nat, d: int)
    requires d in multiset(p.queue) && i >= Opening(p) + |p.queue|
    ensures Tried(p, i, d)
  {
    var q := p.queue;
    var idx :| 0 <= idx < |q| && q[idx] == d;
    var j := Opening(p) + |q| - 1 - idx;
    assert PlannedMove(p, j) == Step(d);
  }

  /**
   * From the sentinel the steps translate the sentinel itself: on a blank 40 px canvas with 20 px objects,
   * after the opening teleport to the canvas centre (20, 20) is refused, the step in direction pi/4 (candidate 8)
   * gives the degenerate box (15, 15, 15, 15), which passes both tests and is returned.
   */
  lemma DegenerateFromSentinel()
    ensures var cfg := Config(40, 20, 0);
            var pixels := seq(1600, _ => Pixel(0, 0, 0, 0));
            var o := SearchOracle(0.0, _ => 0, _ => Point(20, 20));
            var r := Search(cfg, InvalidLocation, pixels, 0.0, o);
            r.Ok? && r.value.location == Box(15, 15, 15, 15) && |r.value.attempts| == 9
  {
    var cfg := Config(40, 20, 0);
    var pixels := seq(1600, _ => Pixel(0, 0, 0, 0));
    var o := SearchOracle(0.0, _ => 0, _ => Point(20, 20));
    var p := MakePlan(InvalidLocation, 0.0, o);
    SentinelCandidates(pixels, p);
    SearchFindsFirstAccepted(cfg.BoundaryRadius(), Mover(cfg, InvalidLocation), Validity(cfg, pixels), p, 8);
  }

  /**
   * On any blank 40 x 40 canvas, candidates 0..7 from the sentinel are refused and candidate 8 is the accepted
   * degenerate box.
   */
  lemma SentinelCandidates(pixels: seq<Pixel>, p: Plan)
    requires |pixels| == 1600 && forall i :: 0 <= i < |pixels| ==> pixels[i] == Pixel(0, 0, 0, 0)
    requires p.opensWithTeleport && p.queue == AngleChoices && p.teleports(0) == Point(20, 20)
    ensures var cfg := Config(40, 20, 0);
            forall j :: 0 <= j < 8 ==>
              !Candidate(Mover(cfg, InvalidLocation), Validity(cfg, pixels), p, j).accepted
    ensures var cfg := Config(40, 20, 0);
            var c := Candidate(Mover(cfg, InvalidLocation), Validity(cfg, pixels), p, 8);
            c.accepted && c.box == Box(15, 15, 15, 15)
  {
    var cfg := Config(40, 20, 0);
    var accept := Validity(cfg, pixels);
    var boxOf := Mover(cfg, InvalidLocation);
    DiagonalOfTwentyThree();
    forall j | 0 <= j < 8
      ensures !Candidate(boxOf, accept, p, j).accepted
    {
      SentinelStepRefused(p, j);
      OutsideRefused(pixels, boxOf(PlannedMove(p, j)));
    }
    UnshuffledAfterTeleport(p, 8);
    assert DirectionOffset(1, 23) == Point(16, 16);
    assert Candidate(boxOf, accept, p, 8).box == Box(15, 15, 15, 15);
    DegenerateBoxValid(pixels);
  }

  /**
   * A box with a negative corner coordinate, or whose right edge passes W - S = 20, is refused by the bounds
   * test, so by the acceptance test.
   */
  lemma OutsideRefused(pixels: seq<Pixel>, b: Box)
    requires |pixels| == 1600 && (b.left < 0 || b.top < 0 || b.right > 20)
    ensures !Validity(Config(40, 20, 0), pixels)(b)
  {
  }

  /** On a blank 40 x 40 canvas with 20 px objects the degenerate box (15, 15, 15, 15) passes both tests. */
  lemma DegenerateBoxValid(pixels: seq<Pixel>)
    requires |pixels| == 1600 && forall i :: 0 <= i < |pixels| ==> pixels[i] == Pixel(0, 0, 0, 0)
    ensures Validity(Config(40, 20, 0), pixels)(Box(15, 15, 15, 15))
  {
    var cfg := Config(40, 20, 0);
    BlankCanvasEmpty(cfg, pixels, Box(15, 15, 15, 15));
    assert IsCoordinateWithinBounds(cfg, Box(15, 15, 15, 15));
  }

  lemma DiagonalOfTwentyThree()
    ensures DiagonalStep(23) == 16
  {
    assert Square(31) < 2 * Square(23) < Square(33);
    DiagonalStepIsNearest(23, 16);
  }

  /**
   * Candidates 0..7 of a search from the sentinel with 20 px objects all leave the canvas margin: the opening
   * box around (20, 20) ends at 30 > 20, and the steps keep a negative corner coordinate.
   */
  lemma SentinelStepRefused(p: Plan, j: nat)
    requires p.opensWithTeleport && p.queue == AngleChoices && p.teleports(0) == Point(20, 20)
    requires DiagonalStep(23) == 16 && j < 8
    ensures var b := MoveBox(Config(40, 20, 0), InvalidLocation, PlannedMove(p, j));
            b.left < 0 || b.top < 0 || b.right > 20
  {
    UnshuffledAfterTeleport(p, j);
    if j == 0 {
      assert PlannedMove(p, j) == Teleport(Point(20, 20));
      assert CenterToBoundingBox(Point(20, 20), 20) == Box(10, 10, 30, 30);
    } else {
      assert PlannedMove(p, j) == Step(9 - j);
      assert Config(40, 20, 0).StepDistance() == 23;
      SentinelStepCorner(9 - j);
    }
  }

  /** Every direction but pi/4 moves a 23 px step left, up, or along an axis, so one corner coordinate stays <= 0. */
  lemma SentinelStepCorner(d: int)
    requires 2 <= d <= 8 && DiagonalStep(23) == 16
    ensures DirectionOffset(d, 23).x <= 0 || DirectionOffset(d, 23).y <= 0
  {
    if d == 2 {
      assert DirectionOffset(2, 23) == Point(23, 0);
    } else if d == 3 {
      assert DirectionOffset(3, 23) == Point(16, -16);
    } else if d == 4 {
      assert DirectionOffset(4, 23) == Point(0, -23);
    } else if d == 5 {
      assert DirectionOffset(5, 23) == Point(-16, -16);
    } else if d == 6 {
      assert DirectionOffset(6, 23) == Point(-23, 0);
    } else if d == 7 {
      assert DirectionOffset(7, 23) == Point(-16, 16);
    } else {
      assert DirectionOffset(8, 23) == Point(0, 23);
    }
  }
}

=== FILE: results.dfy ===
/** Failure-compatible wrappers and the exceptions the generator raises on its own inputs. */
module Results {

  /** The Python exceptions that the placement engine can raise, by cause. */
  datatype Error =
    | EmptyRange      // random.randrange / random.randint over an empty range (ValueError)
    | NoCategories    // 1 / len(scatter_object_paths) with no categories (ZeroDivisionError)
    | NoRatios        // _getNextObject ran over an empty ratio list and returned None
    | CategoryIndex   // the picked category has no object directory (IndexError)
    | EmptyCategory   // random.choice over a category directory without files (IndexError)
    | ZeroImageSize   // the annotation divides by an image_size of 0 (ZeroDivisionError)

  datatype Option<T> = None | Some(value: T)

  datatype Result<T> = Ok(value: T) | Err(error: Error) {

    predicate IsFailure() {
      Err?
    }

    function PropagateFailure<U>(): Result<U>
      requires Err?
    {
      Err(error)
    }

    function Extract(): T
      requires Ok?
    {
      value
    }
  }
}

=== FILE: sampler.dfy ===
/** The category pick of _getNextObject: a walk over cumulative ratios, with the last category as fallback. */
module Sampler {
  import opened Results

  /** ratios[0] + ... + ratios[n-1], accumulated from the front as the loop does. */
  function PrefixSum(ratios: seq<real>, n: nat): real
    requires n <= |ratios|
  {
    if n == 0 then 0.0 else PrefixSum(ratios, n - 1) + ratios[n - 1]
  }

  predicate NonNegative(ratios: seq<real>) {
    forall i :: 0 <= i < |ratios| ==> ratios[i] >= 0.0
  }

  /**
   * The index chosen for the draw r: the first i whose running sum reaches r, or the last index
   * when none does; None for an empty list, where the source falls off the loop and returns None.
   */
  function PickCategory(ratios: seq<real>, r: real): (pick: Option<nat>)
    ensures pick.None? <==> |ratios| == 0
    ensures pick.Some? ==> pick.value < |ratios|
    ensures pick.Some? ==> r <= PrefixSum(ratios, pick.value + 1) || pick.value == |ratios| - 1
    ensures pick.Some? ==> forall n :: 0 < n <= pick.value ==> PrefixSum(ratios, n) < r
  {
    if |ratios| == 0 then None else Some(PickFrom(ratios, r, 0, 0.0))
  }

  function PickFrom(ratios: seq<real>, r: real, i: nat, cum: real): (k: nat)
    requires i < |ratios| && cum == PrefixSum(ratios, i)
    ensures i <= k < |ratios|
    ensures r <= PrefixSum(ratios, k + 1) || k == |ratios| - 1
    ensures forall n :: i < n <= k ==> PrefixSum(ratios, n) < r
    decreases |ratios| - i
  {
    var next := cum + ratios[i];
    if r <= next || i == |ratios| - 1 then i else PickFrom(ratios, r, i + 1, next)
  }

  /** A zero ratio strictly inside the list is never chosen: the index before it reaches r first. */
  lemma ZeroRatioNeverPicked(ratios: seq<real>, r: real, k: nat)
    requires 0 < k < |ratios| - 1 && ratios[k] == 0.0
    ensures PickCategory(ratios, r) != Some(k)
  {
    assert PrefixSum(ratios, k + 1) == PrefixSum(ratios, k);
  }

  /** A larger draw never picks an earlier category. */
  lemma PickMonotone(ratios: seq<real>, r1: real, r2: real)
    requires |ratios| > 0 && r1 <= r2
    ensures PickCategory(ratios, r1).value <= PickCategory(ratios, r2).value
  {
  }

  lemma {:induction false} PrefixSumMonotone(ratios: seq<real>, i: nat, j: nat)
    requires NonNegative(ratios) && i <= j <= |ratios|
    ensures PrefixSum(ratios, i) <= PrefixSum(ratios, j)
    decreases j - i
  {
    if i < j {
      PrefixSumMonotone(ratios, i, j - 1);
    }
  }

  /**
   * With non-negative ratios, every category but the last owns the interval (S_k, S_k+1] of draws (category 0
   * also every draw below it).
   */
  lemma PickInterval(ratios: seq<real>, r: real, k: nat)
    requires NonNegative(ratios) && k < |ratios| - 1
    ensures PickCategory(ratios, r) == Some(k) <==>
              (k == 0 || PrefixSum(ratios, k) < r) && r <= PrefixSum(ratios, k + 1)
  {
    if (k == 0 || PrefixSum(ratios, k) < r) && r <= PrefixSum(ratios, k + 1) {
      var p := PickCategory(ratios, r).value;
      if p < k {
        PrefixSumMonotone(ratios, p + 1, k);
      }
    }
  }

  /**
   * The last category takes every draw above the sum of the others, so a ratio list that sums to less
   * than 1 over-weights it.
   */
  lemma LastAbsorbsResidual(ratios: seq<real>, r: real)
    requires NonNegative(ratios) && |ratios| > 0
    ensures PickCategory(ratios, r) == Some(|ratios| - 1) <==>
              (|ratios| == 1 || PrefixSum(ratios, |ratios| - 1) < r)
  {
    var n := |ratios|;
    var p := PickCategory(ratios, r).value;
    if n > 1 && PrefixSum(ratios, n - 1) < r && p < n - 1 {
      PrefixSumMonotone(ratios, p + 1, n - 1);
    }
    if n > 1 && p == n - 1 {
      assert PrefixSum(ratios, n - 1) < r;
    }
  }

  /**
   * _getNextObject up to the asset file: the picked category must exist and hold at least one file
   * (random.choice over scatter_object_paths[i]).
   */
  function GetNextObject(assetCounts: seq<nat>, ratios: seq<real>, r: real): (category: Result<nat>)
    ensures category.Ok? <==>
              |ratios| > 0 && PickCategory(ratios, r).value < |assetCounts| &&
              assetCounts[PickCategory(ratios, r).value] > 0
    ensures category.Ok? ==> Some(category.value) == PickCategory(ratios, r)
    ensures |ratios| == 0 ==> category == Err(NoRatios)
  {
    match PickCategory(ratios, r)
    case None => Err(NoRatios)
    case Some(i) =>
      if i >= |assetCounts| then Err(CategoryIndex)
      else if assetCounts[i] == 0 then Err(EmptyCategory)
      else Ok(i)
  }

  lemma {:induction false} UniformPrefixSum(ratios: seq<real>, c: real, k: nat)
    requires k <= |ratios|
    requires forall i :: 0 <= i < |ratios| ==> ratios[i] == c
    ensures PrefixSum(ratios, k) == k as real * c
    decreases k
  {
    if k > 0 {
      UniformPrefixSum(ratios, c, k - 1);
    }
  }

  /**
   * The ratios generete uses: the given list, or, when none is given, n equal shares 1/n, which
   * fails with a division by zero when there are no categories.
   */
  function DefaultRatios(ratios: seq<real>, categories: nat): (used: Result<seq<real>>)
    ensures |ratios| > 0 ==> used == Ok(ratios)
    ensures |ratios| == 0 && categories == 0 ==> used == Err(NoCategories)
    ensures |ratios| == 0 && categories > 0 ==>
              used.Ok? && |used.value| == categories && NonNegative(used.value) &&
              PrefixSum(used.value, categories) == 1.0 &&
              forall i :: 0 <= i < categories ==> used.value[i] == used.value[0]
  {
    if |ratios| > 0 then Ok(ratios)
    else if categories == 0 then Err(NoCategories)
    else
      var share := 1.0 / categories as real;
      var uniform := seq(categories, _ => share);
      UniformPrefixSum(uniform, share, categories);
      Ok(uniform)
  }

  /** Every draw of the sequence picks a category that has object files. */
  ghost predicate AlwaysPicks(assetCounts: seq<nat>, ratios: seq<real>, draws: nat -> real) {
    forall k: nat :: GetNextObject(assetCounts, ratios, draws(k)).Ok?
  }

  /** With the default equal shares and every category stocked, no draw fails. */
  lemma DefaultRatiosAlwaysPick(assetCounts: seq<nat>, draws: nat -> real)
    requires |assetCounts| > 0 && forall i :: 0 <= i < |assetCounts| ==> assetCounts[i] > 0
    ensures DefaultRatios([], |assetCounts|).Ok?
    ensures AlwaysPicks(assetCounts, DefaultRatios([], |assetCounts|).value, draws)
  {
    var used := DefaultRatios([], |assetCounts|).value;
    forall k: nat
      ensures GetNextObject(assetCounts, used, draws(k)).Ok?
    {
      assert PickCategory(used, draws(k)).value < |assetCounts|;
    }
  }
}

=== FILE: scene.dfy ===
/**
 * The bookkeeping loop of generete for one image: it keeps drawing a target count, picking a category,
 * searching for a location next to the previous one, pasting, and recording the count and the annotation.
 */
module Scene {
  import opened Results
  import opened Geometry
  import opened Settings
  import opened Overlap
  import opened Boundary
  import opened Sampler
  import opened Placement

  /**
   * One line of the annotation file: the category, then the centre and the object size as fractions of the
   * canvas.
   */
  datatype Annotation = Annotation(category: nat, x: real, y: real, width: real, height: real)

  /**
   * The random choices of one image, by iteration: the draw behind random.randint in the loop guard, the
   * random.random() of the category pick, the choices of the location search, and what pasting the object
   * file drawn at an iteration for a category at a box does to the canvas (random.choice and a PIL operation).
   */
  datatype SceneOracle = SceneOracle(
    targetDraws: nat -> nat,
    categoryDraws: nat -> real,
    searches: nat -> SearchOracle,
    paste: (seq<Pixel>, nat, nat, Box) -> seq<Pixel>)

  /**
   * What one image ends with: the per-category counts, the annotations and the locations in the order
   * placed, and the canvas each location search looked at.
   */
  datatype Layout =
    Layout(counts: seq<nat>, annotations: seq<Annotation>, placements: seq<Box>, canvases: seq<seq<Pixel>>)

  /**
   * random.randint(min, max) for a raw draw: min plus the draw reduced into the range; ValueError on an empty
   * range.
   */
  function TargetCount(minObjects: int, maxObjects: int, draw: nat): (t: Result<int>)
    ensures t.Ok? <==> minObjects <= maxObjects
    ensures t.Ok? ==> minObjects <= t.value <= maxObjects
    ensures t.Err? ==> t.error == EmptyRange
  {
    if minObjects > maxObjects then Err(EmptyRange)
    else Ok(minObjects + draw % (maxObjects - minObjects + 1))
  }

  /** Every count in the range is the target for some draw. */
  lemma TargetCountCovers(minObjects: int, maxObjects: int, t: int)
    requires minObjects <= t <= maxObjects
    ensures TargetCount(minObjects, maxObjects, (t - minObjects) as nat) == Ok(t)
  {
  }

  /** Image.new("RGBA", (W, H)): every pixel transparent black. */
  function BlankCanvas(cfg: Config): (c: seq<Pixel>)
    ensures |c| == cfg.Width() * cfg.Height()
    ensures forall i :: 0 <= i < |c| ==> c[i] == Pixel(0, 0, 0, 0)
  {
    seq(cfg.Width() * cfg.Height(), _ => Pixel(0, 0, 0, 0))
  }

  /** The annotation of an object of a category placed at b: its centre and size divided by the canvas size. */
  function Annotate(cfg: Config, category: nat, b: Box): (a: Annotation)
    requires cfg.imageSize > 0
    ensures a.category == category
    ensures var c := BoundingBoxToCenter(b, cfg.objectSize);
            a.x * cfg.Width() as real == c.x as real && a.y * cfg.Height() as real == c.y as real
    ensures a.width * cfg.Width() as real == cfg.objectSize as real
    ensures a.height * cfg.Height() as real == cfg.objectSize as real
  {
    var c := BoundingBoxToCenter(b, cfg.objectSize);
    Annotation(category, c.x as real / cfg.Width() as real, c.y as real / cfg.Height() as real,
               cfg.objectSize as real / cfg.Width() as real, cfg.objectSize as real / cfg.Height() as real)
  }

  /** How many of the annotations are of category c. */
  function Tally(annotations: seq<Annotation>, c: nat): nat {
    if |annotations| == 0 then 0
    else Tally(annotations[..|annotations| - 1], c) + (if annotations[|annotations| - 1].category == c then 1 else 0)
  }

  /** sum(counts). */
  function Total(counts: seq<nat>): nat {
    if |counts| == 0 then 0 else Total(counts[..|counts| - 1]) + counts[|counts| - 1]
  }

  /** Incrementing one count raises the sum by one. */
  lemma {:induction false} TotalIncrement(counts: seq<nat>, i: nat)
    requires i < |counts|
    ensures Total(counts[i := counts[i] + 1]) == Total(counts) + 1
    decreases |counts|
  {
    var n := |counts|;
    var bumped := counts[i := counts[i] + 1];
    if i == n - 1 {
      assert bumped[..n - 1] == counts[..n - 1];
    } else {
      assert bumped[..n - 1] == counts[..n - 1][i := counts[i] + 1];
      TotalIncrement(counts[..n - 1], i);
    }
  }

  /** Adding an annotation of category k raises the tally of k by one and leaves the others. */
  lemma TallyAppend(annotations: seq<Annotation>, a: Annotation, c: nat)
    ensures Tally(annotations + [a], c) == Tally(annotations, c) + (if a.category == c then 1 else 0)
  {
    assert (annotations + [a])[..|annotations|] == annotations;
  }

  /** The box the search of iteration i starts from: the sentinel at first, then the previous location. */
  function Previous(placements: seq<Box>, i: nat): Box
    requires i <= |placements|
  {
    if i == 0 then InvalidLocation else placements[i - 1]
  }

  /** The location a search returned, or the exception it raised. */
  function LocationOf(r: Result<Outcome>): (l: Result<Box>)
    ensures l.Ok? <==> r.Ok?
    ensures l.Ok? ==> l.value == r.value.location
    ensures l.Err? ==> l.error == r.error
  {
    match r
    case Ok(outcome) => Ok(outcome.location)
    case Err(e) => Err(e)
  }

  /**
   * The location search of iteration k: from a box, on a canvas, with the separation chance 1 - cluster_idx
   * and that iteration's random choices. A canvas of the wrong size cannot come from Image.getdata() and is
   * refused with the sentinel. A location returned is the sentinel or passes both tests on the canvas given;
   * an exception is the empty randrange of a boundary radius <= 0, which the first search, from the sentinel,
   * always reaches.
   */
  function Spawner(cfg: Config, clusterIdx: real, searches: nat -> SearchOracle)
    : (spawn: (Box, seq<Pixel>, nat) -> Result<Box>)
    ensures forall curr, pixels, k :: |pixels| == cfg.Width() * cfg.Height() ==>
              spawn(curr, pixels, k) == LocationOf(Search(cfg, curr, pixels, 1.0 - clusterIdx, searches(k)))
    ensures forall curr, pixels, k :: spawn(curr, pixels, k).Ok? ==>
              spawn(curr, pixels, k).value == InvalidLocation ||
              (|pixels| == cfg.Width() * cfg.Height() && IsValidLocation(cfg, pixels, spawn(curr, pixels, k).value))
    ensures forall curr, pixels, k :: spawn(curr, pixels, k).Err? ==>
              spawn(curr, pixels, k).error == EmptyRange && cfg.BoundaryRadius() <= 0
    ensures forall pixels, k :: |pixels| == cfg.Width() * cfg.Height() && spawn(InvalidLocation, pixels, k).Ok? ==>
              cfg.BoundaryRadius() > 0
  {
    (curr: Box, pixels: seq<Pixel>, k: nat) =>
      if |pixels| == cfg.Width() * cfg.Height() then
        LocationOf(Search(cfg, curr, pixels, 1.0 - clusterIdx, searches(k)))
      else Ok(InvalidLocation)
  }

  /**
   * One iteration's record: the category counted, the annotation and the location appended, and the canvas
   * searched.
   */
  function Record(cfg: Config, layout: Layout, category: nat, placed: Box, canvas: seq<Pixel>): (next: Layout)
    requires cfg.imageSize > 0 && category < |layout.counts|
    ensures |next.counts| == |layout.counts| && next.counts[category] == layout.counts[category] + 1
    ensures forall c :: 0 <= c < |next.counts| && c != category ==> next.counts[c] == layout.counts[c]
    ensures next.annotations == layout.annotations + [Annotate(cfg, category, placed)]
    ensures next.placements == layout.placements + [placed] && next.canvases == layout.canvases + [canvas]
  {
    Layout(layout.counts[category := layout.counts[category] + 1],
           layout.annotations + [Annotate(cfg, category, placed)],
           layout.placements + [placed], layout.canvases + [canvas])
  }

  /** The three sequences of a layout run in step, one entry per iteration. */
  predicate Aligned(layout: Layout) {
    |layout.placements| == |layout.annotations| && |layout.canvases| == |layout.annotations|
  }

  /** The canvas after the last paste: the fresh canvas before the first object. */
  function CurrentCanvas(cfg: Config, paste: (seq<Pixel>, nat, nat, Box) -> seq<Pixel>, layout: Layout): seq<Pixel>
    requires Aligned(layout)
  {
    var n := |layout.annotations|;
    if n == 0 then BlankCanvas(cfg)
    else paste(layout.canvases[n - 1], n - 1, layout.annotations[n - 1].category, layout.placements[n - 1])
  }

  /** The counts are the histogram of the annotations' categories, and they add up to the number of annotations. */
  predicate CountsMatch(layout: Layout) {
    Total(layout.counts) == |layout.annotations| &&
    forall c :: 0 <= c < |layout.counts| ==> layout.counts[c] == Tally(layout.annotations, c)
  }

  /** Every annotation is of a category with object files and describes the location of its iteration. */
  predicate AnnotationsDescribe(cfg: Config, assetCounts: seq<nat>, layout: Layout)
    requires Aligned(layout)
  {
    forall i {:trigger Annotate(cfg, layout.annotations[i].category, layout.placements[i])} ::
      0 <= i < |layout.annotations| ==>
        layout.annotations[i].category < |assetCounts| && assetCounts[layout.annotations[i].category] > 0 &&
        cfg.imageSize > 0 &&
        layout.annotations[i] == Annotate(cfg, layout.annotations[i].category, layout.placements[i])
  }

  /** Each canvas is the previous one with the previous object pasted, starting from a fresh one. */
  predicate CanvasesChain(cfg: Config, paste: (seq<Pixel>, nat, nat, Box) -> seq<Pixel>, layout: Layout)
    requires Aligned(layout)
  {
    (forall i :: 0 <= i < |layout.canvases| ==> |layout.canvases[i]| == cfg.Width() * cfg.Height()) &&
    (|layout.canvases| > 0 ==> layout.canvases[0] == BlankCanvas(cfg)) &&
    forall i :: 0 <= i < |layout.canvases| - 1 ==>
      layout.canvases[i + 1] == paste(layout.canvases[i], i, layout.annotations[i].category, layout.placements[i])
  }

  /** Every location is what the search of its iteration returned on its canvas, from the location before it. */
  predicate FollowsSearches(spawn: (Box, seq<Pixel>, nat) -> Result<Box>, placements: seq<Box>,
                           canvases: seq<seq<Pixel>>)
    requires |placements| == |canvases|
  {
    forall i {:trigger Previous(placements, i)} :: 0 <= i < |placements| ==>
      spawn(Previous(placements, i), canvases[i], i) == Ok(placements[i])
  }

  /** Only the last location can be the sentinel: the guard stops the loop right after one. */
  predicate SentinelLast(layout: Layout) {
    forall i :: 0 <= i < |layout.placements| - 1 ==> layout.placements[i] != InvalidLocation
  }

  /**
   * Why the loop ended: the guard's fresh target was reached, or the last search returned the sentinel
   * (after the first iteration, which always runs when the target is positive).
   */
  predicate Stopped(minObjects: int, maxObjects: int, targetDraws: nat -> nat, layout: Layout)
    requires minObjects <= maxObjects
    requires |layout.placements| == |layout.annotations|
  {
    var n := |layout.annotations|;
    (n > 0 && layout.placements[n - 1] == InvalidLocation) ||
    n >= TargetCount(minObjects, maxObjects, targetDraws(n)).value
  }

  /** The guard's fresh target exceeded the count before each of the first n iterations, so each of them ran. */
  ghost predicate GuardHeld(minObjects: int, maxObjects: int, targetDraws: nat -> nat, n: nat)
    requires minObjects <= maxObjects
  {
    forall j :: 0 <= j < n ==> j < TargetCount(minObjects, maxObjects, targetDraws(j)).value
  }

  lemma GuardStep(minObjects: int, maxObjects: int, targetDraws: nat -> nat, n: nat)
    requires minObjects <= maxObjects && GuardHeld(minObjects, maxObjects, targetDraws, n)
    requires n < TargetCount(minObjects, maxObjects, targetDraws(n)).value
    ensures GuardHeld(minObjects, maxObjects, targetDraws, n + 1)
  {
  }

  /** Every search answers with a location, the sentinel included: none raises. */
  ghost predicate SpawnTotal(spawn: (Box, seq<Pixel>, nat) -> Result<Box>) {
    forall curr, pixels, k :: spawn(curr, pixels, k).Ok?
  }

  /** With a positive radius no search raises, since randrange then has a non-empty range. */
  lemma SpawnerTotal(cfg: Config, clusterIdx: real, searches: nat -> SearchOracle)
    requires cfg.BoundaryRadius() > 0
    ensures SpawnTotal(Spawner(cfg, clusterIdx, searches))
  {
  }

  /** What the loop keeps, for a given search and paste. */
  predicate Consistent(cfg: Config, assetCounts: seq<nat>, spawn: (Box, seq<Pixel>, nat) -> Result<Box>,
                       paste: (seq<Pixel>, nat, nat, Box) -> seq<Pixel>, layout: Layout) {
    Aligned(layout) && |layout.counts| == |assetCounts| &&
    CountsMatch(layout) && AnnotationsDescribe(cfg, assetCounts, layout) &&
    CanvasesChain(cfg, paste, layout) && FollowsSearches(spawn, layout.placements, layout.canvases) &&
    SentinelLast(layout)
  }

  lemma CountsMatchRecord(cfg: Config, layout: Layout, category: nat, placed: Box, canvas: seq<Pixel>)
    requires cfg.imageSize > 0 && category < |layout.counts| && CountsMatch(layout)
    ensures CountsMatch(Record(cfg, layout, category, placed, canvas))
  {
    var next := Record(cfg, layout, category, placed, canvas);
    TotalIncrement(layout.counts, category);
    assert next.counts == layout.counts[category := layout.counts[category] + 1];
    forall c | 0 <= c < |next.counts|
      ensures next.counts[c] == Tally(next.annotations, c)
    {
      TallyAppend(layout.annotations, Annotate(cfg, category, placed), c);
    }
  }

  lemma CanvasesChainRecord(cfg: Config, paste: (seq<Pixel>, nat, nat, Box) -> seq<Pixel>, layout: Layout,
                            category: nat, placed: Box)
    requires cfg.imageSize > 0 && category < |layout.counts| && Aligned(layout)
    requires CanvasesChain(cfg, paste, layout)
    requires forall c: seq<Pixel>, i: nat, k: nat, b: Box :: |paste(c, i, k, b)| == |c|
    ensures var next := Record(cfg, layout, category, placed, CurrentCanvas(cfg, paste, layout));
            Aligned(next) && CanvasesChain(cfg, paste, next) &&
            |CurrentCanvas(cfg, paste, next)| == cfg.Width() * cfg.Height() &&
            CurrentCanvas(cfg, paste, next) ==
              paste(CurrentCanvas(cfg, paste, layout), |layout.annotations|, category, placed) &&
            |next.annotations| == |layout.annotations| + 1 &&
            Previous(next.placements, |next.annotations|) == placed
  {
    var n := |layout.annotations|;
    var next := Record(cfg, layout, category, placed, CurrentCanvas(cfg, paste, layout));
    assert next.annotations[n].category == category;
    if n > 0 {
      assert next.annotations[n - 1] == layout.annotations[n - 1];
    }
  }

  lemma AnnotationsRecord(cfg: Config, assetCounts: seq<nat>, layout: Layout, category: nat, placed: Box,
                          canvas: seq<Pixel>)
    requires cfg.imageSize > 0 && category < |layout.counts| == |assetCounts| && assetCounts[category] > 0
    requires Aligned(layout) && AnnotationsDescribe(cfg, assetCounts, layout)
    ensures Aligned(Record(cfg, layout, category, placed, canvas))
    ensures AnnotationsDescribe(cfg, assetCounts, Record(cfg, layout, category, placed, canvas))
  {
    var next := Record(cfg, layout, category, placed, canvas);
    var n := |layout.annotations|;
    forall i | 0 <= i < |next.annotations|
      ensures next.annotations[i].category < |assetCounts| && assetCounts[next.annotations[i].category] > 0
      ensures next.annotations[i] == Annotate(cfg, next.annotations[i].category, next.placements[i])
    {
      if i < n {
        assert next.annotations[i] == layout.annotations[i] && next.placements[i] == layout.placements[i];
        assert layout.annotations[i] == Annotate(cfg, layout.annotations[i].category, layout.placements[i]);
      }
    }
  }

  lemma SearchesAppend(spawn: (Box, seq<Pixel>, nat) -> Result<Box>, placements: seq<Box>, canvases: seq<seq<Pixel>>,
                       placed: Box, canvas: seq<Pixel>)
    requires |placements| == |canvases| && FollowsSearches(spawn, placements, canvases)
    requires spawn(Previous(placements, |placements|), canvas, |placements|) == Ok(placed)
    ensures FollowsSearches(spawn, placements + [placed], canvases + [canvas])
  {
    var n := |placements|;
    forall i | 0 <= i <= n
      ensures spawn(Previous(placements + [placed], i), (canvases + [canvas])[i], i) == Ok((placements + [placed])[i])
    {
      assert Previous(placements + [placed], i) == Previous(placements, i);
    }
  }

  /** A recorded iteration keeps the loop's bookkeeping consistent. */
  lemma ConsistentRecord(cfg: Config, assetCounts: seq<nat>, spawn: (Box, seq<Pixel>, nat) -> Result<Box>,
                         paste: (seq<Pixel>, nat, nat, Box) -> seq<Pixel>, layout: Layout, category: nat, placed: Box)
    requires cfg.imageSize > 0 && category < |layout.counts| == |assetCounts| && assetCounts[category] > 0
    requires Consistent(cfg, assetCounts, spawn, paste, layout)
    requires forall c: seq<Pixel>, i: nat, k: nat, b: Box :: |paste(c, i, k, b)| == |c|
    requires |layout.placements| > 0 ==> layout.placements[|layout.placements| - 1] != InvalidLocation
    requires var n := |layout.placements|;
             spawn(Previous(layout.placements, n), CurrentCanvas(cfg, paste, layout), n) == Ok(placed)
    ensures Consistent(cfg, assetCounts, spawn, paste,
                       Record(cfg, layout, category, placed, CurrentCanvas(cfg, paste, layout)))
  {
    var canvas := CurrentCanvas(cfg, paste, layout);
    CountsMatchRecord(cfg, layout, category, placed, canvas);
    CanvasesChainRecord(cfg, paste, layout, category, placed);
    AnnotationsRecord(cfg, assetCounts, layout, category, placed, canvas);
    SearchesAppend(spawn, layout.placements, layout.canvases, placed, canvas);
  }

  /**
   * The search of the first iteration starts from the sentinel, so it opens with a teleport and needs a positive
   * radius.
   */
  lemma FirstSearchNeedsRadius(cfg: Config, clusterIdx: real, searches: nat -> SearchOracle, canvas: seq<Pixel>)
    requires |canvas| == cfg.Width() * cfg.Height()
    requires Spawner(cfg, clusterIdx, searches)(InvalidLocation, canvas, 0).Ok?
    ensures cfg.BoundaryRadius() > 0
  {
  }

  /**
   * Lines 214-242 of generete for one image. The target count is drawn afresh at every test of the guard;
   * after the first iteration the loop goes on only while the previous search found a location.
   */
  method GenerateImage(cfg: Config, assetCounts: seq<nat>, ratios: seq<real>, minObjects: int, maxObjects: int,
                       clusterIdx: real, o: SceneOracle)
    returns (r: Result<Layout>)
    requires forall c: seq<Pixel>, i: nat, k: nat, b: Box :: |o.paste(c, i, k, b)| == |c|
    ensures |ratios| == 0 && |assetCounts| == 0 ==> r == Err(NoCategories)
    ensures (|ratios| > 0 || |assetCounts| > 0) && minObjects > maxObjects ==> r == Err(EmptyRange)
    ensures r.Ok? ==> Consistent(cfg, assetCounts, Spawner(cfg, clusterIdx, o.searches), o.paste, r.value)
    ensures r.Ok? && |r.value.annotations| > 0 ==> cfg.BoundaryRadius() > 0 && cfg.imageSize > 0
    ensures r.Ok? ==> minObjects <= maxObjects && (|r.value.annotations| == 0 || |r.value.annotations| <= maxObjects)
    ensures r.Ok? && minObjects > 0 ==> |r.value.annotations| > 0
    ensures r.Ok? ==> Stopped(minObjects, maxObjects, o.targetDraws, r.value)
    ensures r.Ok? ==> GuardHeld(minObjects, maxObjects, o.targetDraws, |r.value.annotations|)
    ensures (|ratios| > 0 && AlwaysPicks(assetCounts, ratios, o.categoryDraws) && minObjects <= maxObjects &&
             cfg.imageSize > 0 && cfg.BoundaryRadius() > 0) ==> r.Ok?
    ensures (|ratios| == 0 && |assetCounts| > 0 && (forall i :: 0 <= i < |assetCounts| ==> assetCounts[i] > 0) &&
             minObjects <= maxObjects && cfg.imageSize > 0 && cfg.BoundaryRadius() > 0) ==> r.Ok?
  {
    var used :- DefaultRatios(ratios, |assetCounts|);
    var spawn := Spawner(cfg, clusterIdx, o.searches);
    if cfg.BoundaryRadius() > 0 {
      SpawnerTotal(cfg, clusterIdx, o.searches);
    }
    if |ratios| == 0 && |assetCounts| > 0 && forall i :: 0 <= i < |assetCounts| ==> assetCounts[i] > 0 {
      DefaultRatiosAlwaysPick(assetCounts, o.categoryDraws);
    }
    r := PlaceObjects(cfg, assetCounts, used, minObjects, maxObjects, spawn, o);
    if r.Ok? && |r.value.annotations| > 0 {
      var first := r.value.canvases[0];
      assert spawn(Previous(r.value.placements, 0), first, 0).Ok?;
      FirstSearchNeedsRadius(cfg, clusterIdx, o.searches, first);
    }
  }

  /** The loop itself, for any location search: the bookkeeping does not depend on how locations are found. */
  method PlaceObjects(cfg: Config, assetCounts: seq<nat>, ratios: seq<real>, minObjects: int, maxObjects: int,
                      spawn: (Box, seq<Pixel>, nat) -> Result<Box>, o: SceneOracle)
    returns (r: Result<Layout>)
    requires forall c: seq<Pixel>, i: nat, k: nat, b: Box :: |o.paste(c, i, k, b)| == |c|
    ensures minObjects > maxObjects ==> r == Err(EmptyRange)
    ensures r.Ok? ==> Consistent(cfg, assetCounts, spawn, o.paste, r.value)
    ensures r.Ok? && |r.value.annotations| > 0 ==> cfg.imageSize > 0
    ensures r.Ok? ==> minObjects <= maxObjects && (|r.value.annotations| == 0 || |r.value.annotations| <= maxObjects)
    ensures r.Ok? && minObjects > 0 ==> |r.value.annotations| > 0
    ensures r.Ok? ==> Stopped(minObjects, maxObjects, o.targetDraws, r.value)
    ensures r.Ok? ==> GuardHeld(minObjects, maxObjects, o.targetDraws, |r.value.annotations|)
    ensures (minObjects <= maxObjects && cfg.imageSize > 0 && AlwaysPicks(assetCounts, ratios, o.categoryDraws) &&
             SpawnTotal(spawn)) ==> r.Ok?
  {
    var layout := Layout(seq(|assetCounts|, _ => 0), [], [], []);
    ZeroCountsTotal(layout.counts, |assetCounts|);
    assert layout.counts[..|assetCounts|] == layout.counts;
    var target :- TargetCount(minObjects, maxObjects, o.targetDraws(0));
    while |layout.annotations| < target &&
          (|layout.annotations| == 0 || Previous(layout.placements, |layout.annotations|) != InvalidLocation)
      invariant minObjects <= maxObjects
      invariant Consistent(cfg, assetCounts, spawn, o.paste, layout)
      invariant |layout.annotations| > 0 ==> cfg.imageSize > 0
      invariant target == TargetCount(minObjects, maxObjects, o.targetDraws(|layout.annotations|)).value
      invariant |layout.annotations| == 0 || |layout.annotations| <= maxObjects
      invariant |CurrentCanvas(cfg, o.paste, layout)| == cfg.Width() * cfg.Height()
      invariant GuardHeld(minObjects, maxObjects, o.targetDraws, |layout.annotations|)
      decreases maxObjects - |layout.annotations|
    {
      GuardStep(minObjects, maxObjects, o.targetDraws, |layout.annotations|);
      layout :- Iterate(cfg, assetCounts, ratios, spawn, o, layout);
      target := TargetCount(minObjects, maxObjects, o.targetDraws(|layout.annotations|)).value;
    }
    var n := |layout.annotations|;
    assert n >= target || (n > 0 && layout.placements[n - 1] == InvalidLocation);
    return Ok(layout);
  }

  /**
   * One pass of the loop body: pick a category, search from the previous location on the current canvas,
   * paste, and record. It fails only when the pick, the search or the annotation's division fails.
   */
  method Iterate(cfg: Config, assetCounts: seq<nat>, ratios: seq<real>, spawn: (Box, seq<Pixel>, nat) -> Result<Box>,
                 o: SceneOracle, layout: Layout)
    returns (next: Result<Layout>)
    requires forall c: seq<Pixel>, i: nat, k: nat, b: Box :: |o.paste(c, i, k, b)| == |c|
    requires Consistent(cfg, assetCounts, spawn, o.paste, layout)
    requires |layout.placements| > 0 ==> layout.placements[|layout.placements| - 1] != InvalidLocation
    requires |CurrentCanvas(cfg, o.paste, layout)| == cfg.Width() * cfg.Height()
    ensures next.Ok? ==> Consistent(cfg, assetCounts, spawn, o.paste, next.value)
    ensures next.Ok? ==> |next.value.annotations| == |layout.annotations| + 1 && cfg.imageSize > 0
    ensures next.Ok? ==> |CurrentCanvas(cfg, o.paste, next.value)| == cfg.Width() * cfg.Height()
    ensures var n := |layout.annotations|;
            (GetNextObject(assetCounts, ratios, o.categoryDraws(n)).Ok? &&
             spawn(Previous(layout.placements, n), CurrentCanvas(cfg, o.paste, layout), n).Ok? &&
             cfg.imageSize > 0) <==> next.Ok?
  {
    var n := |layout.annotations|;
    var canvas := CurrentCanvas(cfg, o.paste, layout);
    var category :- GetNextObject(assetCounts, ratios, o.categoryDraws(n));
    var placed :- spawn(Previous(layout.placements, n), canvas, n);
    if cfg.imageSize == 0 {
      return Err(ZeroImageSize);
    }
    ConsistentRecord(cfg, assetCounts, spawn, o.paste, layout, category, placed);
    CanvasesChainRecord(cfg, o.paste, layout, category, placed);
    next := Ok(Record(cfg, layout, category, placed, canvas));
  }

  /** Every location recorded is the sentinel or a box that passed both tests against the canvas searched. */
  lemma PlacementsValid(cfg: Config, assetCounts: seq<nat>, clusterIdx: real, o: SceneOracle, layout: Layout)
    requires Consistent(cfg, assetCounts, Spawner(cfg, clusterIdx, o.searches), o.paste, layout)
    ensures forall i :: 0 <= i < |layout.placements| ==>
              |layout.canvases[i]| == cfg.Width() * cfg.Height() &&
              (layout.placements[i] == InvalidLocation ||
               IsValidLocation(cfg, layout.canvases[i], layout.placements[i]))
  {
    SearchedValid(cfg, clusterIdx, o.searches, layout.placements, layout.canvases);
  }

  lemma SearchedValid(cfg: Config, clusterIdx: real, searches: nat -> SearchOracle, placements: seq<Box>,
                      canvases: seq<seq<Pixel>>)
    requires |placements| == |canvases|
    requires forall i :: 0 <= i < |canvases| ==> |canvases[i]| == cfg.Width() * cfg.Height()
    requires FollowsSearches(Spawner(cfg, clusterIdx, searches), placements, canvases)
    ensures forall i :: 0 <= i < |placements| ==>
              placements[i] == InvalidLocation || IsValidLocation(cfg, canvases[i], placements[i])
  {
    forall i | 0 <= i < |placements|
      ensures placements[i] == InvalidLocation || IsValidLocation(cfg, canvases[i], placements[i])
    {
      SpawnedValid(cfg, clusterIdx, searches, Previous(placements, i), canvases[i], i, placements[i]);
    }
  }

  lemma SpawnedValid(cfg: Config, clusterIdx: real, searches: nat -> SearchOracle, curr: Box, pixels: seq<Pixel>,
                     k: nat, placed: Box)
    requires |pixels| == cfg.Width() * cfg.Height()
    requires Spawner(cfg, clusterIdx, searches)(curr, pixels, k) == Ok(placed)
    ensures placed == InvalidLocation || IsValidLocation(cfg, pixels, placed)
  {
  }

  lemma {:induction false} ZeroCountsTotal(counts: seq<nat>, k: nat)
    requires k <= |counts| && forall i :: 0 <= i < |counts| ==> counts[i] == 0
    ensures Total(counts[..k]) == 0
    decreases k
  {
    if k > 0 {
      assert counts[..k][..k - 1] == counts[..k - 1];
      ZeroCountsTotal(counts, k - 1);
    }
  }
}

=== FILE: settings.dfy ===
/** The constants and the per-generator configuration of SyntheticGenerator. */
module Settings {
  import opened Geometry

  /** The sentinel returned when no location was found. */
  const InvalidLocation: Box := Box(-1, -1, -1, -1)
  const ObjectSpacing: nat := 3
  const OverlapPixelThreshold: nat := 50000
  const RandomLocationRetriesLimit: nat := 300

  /** The generator's geometry: a square canvas of imageSize pixels and square objects of objectSize pixels. */
  datatype Config = Config(imageSize: nat, objectSize: nat, imagePadding: int) {

    function Width(): nat {
      imageSize
    }

    function Height(): nat {
      imageSize
    }

    /** floor(image_size / 2) - image_padding. */
    function BoundaryRadius(): (r: int)
      ensures 2 * (r + imagePadding) <= imageSize < 2 * (r + imagePadding) + 2
    {
      imageSize / 2 - imagePadding
    }

    /** The translation distance of a step: object size plus spacing. */
    function StepDistance(): nat {
      objectSize + ObjectSpacing
    }
  }
}

=== FILE: shuffling.dfy ===
/**
 * random.shuffle as Fisher-Yates: for i from the last index down to 1, swap x[i] with x[j] for a draw
 * j in [0, i]. The draws come from an oracle and are reduced into range as randbelow(i + 1) would be.
 */
module Shuffling {

  function Swap(xs: seq<int>, i: nat, j: nat): (ys: seq<int>)
    requires i < |xs| && j < |xs|
    ensures |ys| == |xs|
  {
    xs[i := xs[j]][j := xs[i]]
  }

  function ShuffleDown(xs: seq<int>, i: nat, draws: nat -> nat, t: nat): (ys: seq<int>)
    requires i < |xs|
    ensures |ys| == |xs|
    decreases i
  {
    if i == 0 then xs
    else ShuffleDown(Swap(xs, i, draws(t) % (i + 1)), i - 1, draws, t + 1)
  }

  /** The shuffled list: the same elements, each as often, in the order the draws dictate. */
  function Shuffle(xs: seq<int>, draws: nat -> nat): (ys: seq<int>)
    ensures |ys| == |xs|
  {
    if |xs| == 0 then xs else ShuffleDown(xs, |xs| - 1, draws, 0)
  }

  lemma SwapPermutes(xs: seq<int>, i: nat, j: nat)
    requires i < |xs| && j < |xs|
    ensures multiset(Swap(xs, i, j)) == multiset(xs)
  {
  }

  lemma {:induction false} ShuffleDownPermutes(xs: seq<int>, i: nat, draws: nat -> nat, t: nat)
    requires i < |xs|
    ensures multiset(ShuffleDown(xs, i, draws, t)) == multiset(xs)
    decreases i
  {
    if i > 0 {
      SwapPermutes(xs, i, draws(t) % (i + 1));
      ShuffleDownPermutes(Swap(xs, i, draws(t) % (i + 1)), i - 1, draws, t + 1);
    }
  }

  /** The shuffled list holds the same elements, each as often. */
  lemma ShufflePermutes(xs: seq<int>, draws: nat -> nat)
    ensures multiset(Shuffle(xs, draws)) == multiset(xs)
  {
    if |xs| > 0 {
      ShuffleDownPermutes(xs, |xs| - 1, draws, 0);
    }
  }

  predicate Distinct(s: seq<int>) {
    forall i, j :: 0 <= i < j < |s| ==> s[i] != s[j]
  }

  lemma {:induction false} DistinctCounts(s: seq<int>)
    requires Distinct(s)
    ensures forall v :: multiset(s)[v] <= 1
    decreases |s|
  {
    if |s| > 0 {
      var s' := s[..|s| - 1];
      var last := s[|s| - 1];
      assert s == s' + [last];
      DistinctCounts(s');
      assert last !in s';
    }
  }

  /** A permutation of a list without repetitions has none either. */
  lemma PermutationDistinct(xs: seq<int>, ys: seq<int>)
    requires multiset(xs) == multiset(ys) && Distinct(ys)
    ensures Distinct(xs)
  {
    DistinctCounts(ys);
    forall i, j | 0 <= i < j < |xs|
      ensures xs[i] != xs[j]
    {
      assert xs == xs[..i] + [xs[i]] + xs[i + 1..j] + [xs[j]] + xs[j + 1..];
      assert multiset(xs)[xs[j]] >= multiset{xs[i], xs[j]}[xs[j]];
    }
  }
}
